=== FILE: README.md ===
# Open Interpreter GUI: chunk aggregation and conversation store

This Dafny project models the core of the Open Interpreter GUI, a Python
application in which a language model writes code, local language runners run
it, and the results flow back into one conversation. Everything travels as LMC
dicts: `role`, `type`, an optional `format`, `content` and an optional
`recipient`. The project models the following parts.

- **The aggregator `_respond_and_store`.** It pulls chunks from the response
  stream and skips those with empty content. A chunk that does not match the
  open flag base closes that group with an end flag and opens a new one with
  a start flag. A chunk matches when it has the base's role and type, and
  also the base's format if the base has one. Console bases never carry a
  format, so a console group takes console chunks of every format. Any other
  base carries the format of the chunk that opened it, if that chunk had one.
  The chunk that opens a group is stored as a new message, unless it is an
  active-line chunk. A matching chunk's content is concatenated onto the last
  stored message, unless it is an active-line chunk. That message is the one
  the group opened, or, when an active-line chunk opened the group, the
  message stored before it. A confirmation chunk closes the group and stores
  an empty console output.
  Console output is passed through the truncation policy. The loop honours a
  stop event.
  - Modules: `Lmc` (the shared data model), `Aggregator` (the loop as a fold),
    `Framing` (a reader that checks the yielded stream) and
    `AggregatorProperties` (the theorems).
- **The conversation store** (module `Conversation`). It covers:
  - how `_handle_message` turns an entry into a message, and the
    `last_messages_count` cursor it sets;
  - the blocking `chat`, which runs one aggregated turn, names the
    conversation and returns the new messages. With `conversation_history`
    on, which is the default, saving reads `conversation_history_path`. No
    code assigns that attribute, so `chat` raises `AttributeError` there;
  - `wait`, `reset`, and the `anonymous_telemetry` and `will_contribute`
    properties.
- **The conversation title `_get_first_few_words`** (module `Title`), with
  Python's `str.split()`, `"_".join` and the removal of characters that are
  unsafe in file names.
- **The HTML runner `HTML.run`** (module `HtmlRunner`). It echoes the code and
  announces that it is ready.
- **The GUI consumer `ChatWidget.handle_interpreter_output`** (module
  `ChatWidget`). It buffers message and code groups between flags and shows
  console output at once.
- **`MainWindow.detect_language`** (module `Extensions`): the language of a
  file, looked up from its extension.

## How the model represents the code

- **Errors.** A missing dict key or an empty list raises in Python. Here that
  is a `Fault` value (`KeyError`, `IndexError`, `AttributeError`). A fault ends
  the fold, and what was yielded or stored before it is kept, as the generator
  would have left it.
- **Stop event.** It is the index of the first chunk at which it is seen set.
- **Truncation.** `truncate_output`, with `max_output` and the scrollbar flag
  applied, is an arbitrary function `Policy.truncate`.

## Behaviour of the code worth knowing

- **A stop still closes the group.** The stop-event `break` leaves the `for`
  loop and then reaches the final end flag (core/core.py:361-362 and
  437-439). So a stopped turn is closed like an exhausted one
  (`AggregatorProperties.StopStillCloses`).
- **Console output can join the code message.** Take code `print(1)`, then
  an active-line chunk, then console output `1\n`. The active-line chunk
  opens the console group but is not stored (core/core.py:422-423). The
  output chunk then matches that group, because console bases carry no
  format. So its content is concatenated onto the last stored message, which
  is the code message (core/core.py:407), and that message is then truncated
  (`AggregatorProperties.ScenarioOutputJoinsCodeMessage`).
- **`responding` stays set after an exception.** Only `GeneratorExit` clears
  `responding` (core/core.py:321-323). Any other exception leaves it set, so
  `wait()` would keep polling (`Conversation.ChatReturnsTheTurn`). Examples
  are a `KeyError` from the aggregator, an `IndexError` from the title and
  the `AttributeError` for the history directory.
- **`chat` raises whenever history is on.** `_save_conversation` reads
  `conversation_history_path` (core/core.py:287-288), which no code assigns
  (`Conversation.ChatReturnsOnlyWithoutHistory`).

## Model

| member | source | states |
|---|---|---|
| Aggregator.Matches | core/core.py:389-403 | A chunk matches the open flag base exactly when it has the base's role and type and, if the base has a format, that format too. A roleless chunk never matches. The consequences for console and other groups are `OwnBaseMatches`, `ConsoleGroupsIgnoreFormat` and `OtherGroupsKeyOnFormat`. |
| Aggregator.OpenBase | core/core.py:413-417 | The new flag base has the chunk's role and type. A console base never has a format. Any other base has the chunk's format exactly when the chunk has one. |
| Aggregator.AfterYield | core/core.py:428-435 | After a chunk is yielded, console output replaces the last stored message's content by its truncation. A console chunk without a format raises `KeyError`. Output with an empty store raises `IndexError`. Open group and events are unchanged, and earlier messages keep their values. |
| Aggregator.Step | core/core.py:364-435 | A chunk with empty content changes nothing. Otherwise the yielded events only grow, and the store grows only at its end: earlier messages are untouched, the last one keeps its header, and at most one message is added. |
| Aggregator.Feed | core/core.py:358-436 | Events are only ever appended, and once an exception has been raised nothing further changes. The store never shrinks, and it gains at most one message per pulled chunk. |
| Aggregator.Pulled | core/core.py:359-362 | A stop event seen when chunk k is pulled keeps exactly the chunks before k. Without one, every chunk is processed. |
| Aggregator.RespondAndStore | core/core.py:345-441 | When nothing raises, no group is left open at the end of the turn. The store never shrinks and gains at most one message per processed chunk. A stop seen at the first chunk, or an empty stream, yields nothing and stores nothing. The framing theorem is `RespondAndStoreFraming`. |
| AggregatorProperties.OwnBaseMatches | core/core.py:389-417 | A chunk always matches the flag base it opens, so the next chunk of the same kind extends its group. |
| AggregatorProperties.ConsoleGroupsIgnoreFormat | core/core.py:389-417 | A console group takes exactly the console chunks of the same role, whatever their format (active line, output, anything). |
| AggregatorProperties.OtherGroupsKeyOnFormat | core/core.py:389-417 | Any other group takes exactly the chunks of the same role and type. When the opening chunk had a format, they must also have that format. |
| AggregatorProperties.StepConfirmation | core/core.py:367-387 | A confirmation closes the open group and is yielded only when auto-run is off. It appends exactly one empty console-output message from the computer and leaves no group open. |
| AggregatorProperties.ConfirmEvents | core/core.py:367-375 | The events of a confirmation close the open group and leave a reader outside any group. They yield the confirmation exactly when auto-run is off. |
| AggregatorProperties.StepMatch | core/core.py:389-435 | A matching chunk is yielded alone, with no flags. An active-line chunk leaves the store unchanged. Any other chunk's content is concatenated onto the last message. Console output then truncates that message. |
| AggregatorProperties.StepMismatch | core/core.py:408-435 | A chunk that does not match yields the old group's end flag, the new start flag and the chunk, in that order. The chunk is stored as a new message unless it is an active-line chunk; console output is stored truncated. |
| AggregatorProperties.StepFaults | core/core.py:407-429 | A roleless chunk opening a group raises `KeyError('role')` after the old end flag. A chunk extending a group while the store is empty raises `IndexError` before anything is yielded. A console chunk without a format raises `KeyError('format')` right after it is yielded. |
| AggregatorProperties.StepActiveLineStoresNothing | core/core.py:404-423 | An active-line chunk never changes the stored messages. |
| AggregatorProperties.StepFramedAndYields | core/core.py:364-426 | One step keeps the yielded stream well framed. A reader's open group equals `last_flag_base`. The chunk is yielded exactly when it survives: non-empty, and not a confirmation under auto-run. |
| AggregatorProperties.FeedExtends | core/core.py:358-436 | Over the whole loop, the messages from before the turn are untouched, except the content of the last one. |
| AggregatorProperties.FeedFramedAndYields | core/core.py:358-436 | Over the whole loop, the stream stays well framed. If nothing raises, the yielded chunks are exactly the surviving chunks, in input order, each once. |
| AggregatorProperties.RespondAndStoreFraming | core/core.py:345-441 | Whole turn: start and end flags alternate, and each end repeats its start's base. If nothing raises, the stream ends with an end flag and no group open, and it yields exactly the surviving pulled chunks in order. Earlier messages are preserved, except the content of the last one. |
| AggregatorProperties.StopStillCloses | core/core.py:359-439 | A stop at chunk k gives the same turn as a stream that ends before chunk k. It still yields a final end flag and all surviving chunks before k. |
| AggregatorProperties.ActiveLineContentNeverStored | core/core.py:353-423 | Two streams that differ only in what their non-empty active-line chunks say produce the same stored messages and the same error. |
| AggregatorProperties.FeedWithinGroup | core/core.py:389-407 | Inside an open group, the contents of the matching chunks are concatenated onto the last message in order. They are yielded without any flag. |
| AggregatorProperties.GroupingInvariant | core/core.py:389-439 | Non-console chunks sharing role, type and format become exactly one new message, holding the concatenation of their contents. That message is framed by one start flag and one end flag, and every chunk is yielded. |
| AggregatorProperties.ScenarioOneMessage | core/core.py:389-439 | The assistant fragments "Hello" and " world" become the single message "Hello world" inside one start/end pair. |
| AggregatorProperties.ScenarioOutputJoinsCodeMessage | core/core.py:404-435 | Code "print(1)", then an active-line chunk, then console output "1\n" leave one message: the code message, with content `truncate("print(1)1\n")`. |
| AggregatorProperties.ScenarioConfirmation | core/core.py:367-387 | A confirmation during a code group closes it and stores one empty console output. The confirmation is yielded only without auto-run. |
| Title.Split | core/core.py:295 | `str.split()` gives non-empty words that contain no whitespace. `SplitSkipsSpace`, `SplitOneWord`, `SplitWordThenSpaces` and `SplitJoin` pin down every case. |
| Title.SplitSkipsSpace | core/core.py:295 | Leading whitespace does not change the words. |
| Title.SplitOneWord | core/core.py:295 | A non-empty text without whitespace is a single word. |
| Title.SplitWordThenSpaces | core/core.py:295 | A word followed by whitespace is the first word, and the words after it are those of the rest. |
| Title.SplitJoin | core/core.py:295 | Non-empty whitespace-free words joined by any non-empty run of whitespace split back into exactly those words. So `Split` cuts at whitespace and nowhere else, e.g. `"ab"` stays one word. |
| Title.Join | core/core.py:297 | Joining no words gives the empty text. Otherwise the result is at least as long as its first and its last word, and with two or more words it is at least as long as the first word, the separator and the last word together. `JoinSnoc`, `JoinEnds` and `JoinLength` pin down the result for `_`. |
| Title.JoinSnoc | core/core.py:297 | Adding a word at the end adds `_` and that word at the end of the joined text. |
| Title.JoinEnds | core/core.py:297 | The joined text starts with the first word and ends with the last. |
| Title.JoinLength | core/core.py:297 | Joining with `_` adds exactly one character between neighbouring words. |
| Title.SplitKeepsEverythingButSpaces | core/core.py:295 | The words, concatenated, are the input with its whitespace removed: splitting loses nothing else. |
| Title.JoinedWordsNoLonger | core/core.py:295-297 | Joining the words with `_` never gives a longer text than the one that was split. |
| Title.Sanitize | core/core.py:300 | The result contains none of `<>:"/\|?*!`. Each of its characters comes from the input, and it is no longer than the input. |
| Title.SanitizeOne | core/core.py:300 | A single character is kept exactly when it is not one of `<>:"/\|?*!`. |
| Title.SanitizeAppend | core/core.py:300 | Sanitising a concatenation is concatenating the sanitised parts. With `SanitizeOne`, every safe character is kept in order and only the unsafe ones are dropped. |
| Title.SanitizeIdempotent | core/core.py:300 | Sanitising twice is sanitising once. |
| Title.FirstFewWords | core/core.py:293-300 | The title has at most 25 characters and no unsafe character. Each of its characters is `_` or a character of the first 25 characters of the message. |
| Title.FirstFewWordsByWordCount | core/core.py:293-300 | With fewer than two words in the first 25 characters, the title is the sanitised first 15 characters, so at most 15 long. Otherwise it is the sanitised words except the last, joined by `_`. |
| Title.ConversationTitle | core/core.py:293-300 | The title raises `IndexError` exactly when the conversation is empty. |
| Title.ConversationFilename | core/core.py:285-286 | The file name starts with the title and ends in `.json`. |
| Conversation.WithUserRole | core/core.py:269-271 | A dict entry gets the role `user` only when it has no role. Everything else is kept. |
| Conversation.HandleMessage | core/core.py:265-279 | An empty entry becomes the fixed user prompt. A string is appended as a user message and a dict is appended with a default role. A list replaces the conversation, and any other truthy value changes nothing. The cursor ends at the length of the store. |
| Conversation.NewMessages | core/core.py:319 | The returned messages are exactly the ones after the cursor, and the cursor and they together make up the store. A cursor at or past the end gives nothing. |
| Conversation.HandledHasNothingNew | core/core.py:278 | Right after an entry is handled, the cursor is valid and there is nothing new to return. |
| Conversation.HandledStoreNonEmpty | core/core.py:265-278 | Every entry except a truthy value of another type leaves the store non-empty. |
| Conversation.NameConversation | core/core.py:281-286 | A conversation with history on and no name yet is named after its first words and the date. Any other conversation is returned unchanged. The only fault is `IndexError`, raised exactly when, in that case, the conversation is empty. |
| Conversation.Chat | core/core.py:281-323 | `responding` is cleared exactly when `chat` returns. An exception leaves it set. With history on, `chat` always raises. What it returns is the messages after the cursor. |
| Conversation.ChatReturnsOnlyWithoutHistory | core/core.py:281-323 | `chat` returns exactly when history is off and the turn raised nothing. With history on, once the turn and the naming succeed, it raises `AttributeError('conversation_history_path')`. The conversation is then already named, its messages are the turn's, and `responding` is still set. |
| Conversation.ChatReturnsTheTurn | core/core.py:302-323 | `chat` returns only with history off. It then returns exactly what the turn appended after the handled entry, at most one message per pulled chunk, and clears `responding`. The handled store is kept except for its last message's content. An exception leaves `responding` set. |
| Conversation.ChatReturnsNoUserText | core/core.py:265-319 | A string entry sits just before the cursor, so `chat` never returns the user's own message. |
| Conversation.Wait | core/core.py:170-173 | `wait` gives nothing while a turn is responding. Otherwise it gives the messages after the cursor. |
| Conversation.ChatThenWait | core/core.py:170-173 | After `chat` returns, `wait` returns the same messages at once. |
| Conversation.Reset | core/core.py:443-447 | Reset empties the conversation and the cursor and keeps the other state. |
| Conversation.ResetThenText | core/core.py:443-447 | After a reset, a string entry gives a conversation holding just that user message. |
| Conversation.WillContributeNeedsTelemetry | core/core.py:159-168 | Contributing implies anonymous telemetry. Contributing holds exactly when it was requested, history is on, and telemetry is allowed. |
| HtmlRunner.Run | core/computer/terminal/languages/html.py:10-25 | The runner yields two roleless chunks addressed to both parties, in this order: the code, as `code`/`html`, and then the fixed notice as console output. |
| HtmlRunner.RunEchoesCode | core/computer/terminal/languages/html.py:10-25 | The output determines the code, and the notice does not depend on it. |
| HtmlRunner.RunnerChunksNeedARole | core/computer/terminal/languages/html.py:10-25 | Fed to the aggregator as they are, the runner's chunks raise `KeyError('role')` and store nothing. |
| HtmlRunner.RunnerChunksWithRole | core/computer/terminal/languages/html.py:10-25 | With the computer's role added, the output becomes two messages, the code and the truncated notice. Each is framed in its own group. |
| ChatWidget.FromEvent | core/core.py:410-426 | Flags carry `start` or `end`, no content, and the kind and format of their flag base. Chunks carry their own kind, format and content. Nothing the aggregator yields has a `language` key. |
| ChatWidget.Handle | gui/chat_widget.py:77-93 | Console output is shown at once. Other kinds are ignored. A message or code response raises exactly when no buffer exists yet, or when a code end finds no language. Each response shows at most one entry, and only an end flag shows one. The language a code start picks is stated by `CodeStartTakesLanguage`. |
| ChatWidget.CodeStartTakesLanguage | gui/chat_widget.py:82-87 | A code start opens a fresh buffer whose display language is the response's `language` key, or `python` when the key is missing. A response that both starts and ends the group shows its code in that language at once. |
| ChatWidget.HandleKeepsReady | gui/chat_widget.py:77-93 | Every event a framed reader accepts is handled without raising, and the widget stays ready for the group that is open. |
| ChatWidget.FramedStreamNeverRaises | gui/chat_widget.py:77-93 | A well-framed stream never makes the widget raise. Every code block is shown as Python. |
| ChatWidget.WidgetShowsEveryTurn | gui/chat_widget.py:77-93 | A freshly created widget shows any aggregated turn without raising. |
| ChatWidget.ChunksFillBuffer | gui/chat_widget.py:78-89 | Inside a message or code group, the chunks only add their contents to the buffer, in order. |
| ChatWidget.GroupShownWhole | gui/chat_widget.py:77-91 | A whole message or code group is shown as one entry holding the concatenation of its chunks' contents. Code is shown as Python. |
| ChatWidget.ConsoleOutputShownAtOnce | gui/chat_widget.py:92-93 | Each console output chunk is shown as soon as it arrives. A console start flag shows nothing. |
| ChatWidget.UnframedMessageRaises | gui/chat_widget.py:78-81 | A message chunk that arrives before any start flag raises `AttributeError`. |
| Extensions.LastSegment | gui/main_window.py:149 | The result is the suffix after the last dot. It contains no dot, and a dot precedes it unless it is the whole name. |
| Extensions.NoDotIsOwnSegment | gui/main_window.py:149 | A name without a dot is its own extension. |
| Extensions.SegmentAfterLastDot | gui/main_window.py:149 | Whatever precedes the last dot does not change the extension. |
| Extensions.Lower | gui/main_window.py:149 | Lower-casing keeps the length and works character by character. |
| Extensions.LowerMeaning | gui/main_window.py:149 | No upper-case ASCII letter survives lower-casing. Each one becomes its lower-case letter, and every other character is kept. |
| Extensions.LowerIdempotent | gui/main_window.py:149 | Lower-casing twice is lower-casing once. |
| Extensions.LowerKeepsSegments | gui/main_window.py:149 | Lower-casing commutes with taking the extension. |
| Extensions.DetectLanguage | gui/main_window.py:148-158 | The result is one of the table's languages or `Unknown`. It is `Unknown` exactly when the lower-cased extension is not a key. When it is a key, the result is that key's language. |
| Extensions.LanguageOfExtension | gui/main_window.py:148-158 | The language of `name.ext` is the language of `ext` alone, whatever the name. |
| Extensions.DetectionIgnoresCase | gui/main_window.py:148-158 | Lower-casing the file name never changes the detected language. |
| Extensions.PythonFiles | gui/main_window.py:148-158 | `.py` and `.PY` after any name are Python. |
| Extensions.TrailingDotIsUnknown | gui/main_window.py:149-158 | A name ending in a dot has an empty extension and is `Unknown`. |

## Left out

- The model stream, code execution and `respond()` are not part of this
  model. The pulled chunks are a parameter of the turn.
- Aggregator.RespondAndStore: the turn's opening `self.verbose = False`
  (core/core.py:350) is not modelled, because no modelled operation reads
  `verbose`. Every turn switches that setting off, and it stays off.
- Conversation.Chat: assumes what `_streaming_chat` does, because no source
  file defines it (core/core.py:311-314 call it). The model takes it to drain
  `_respond_and_store` exactly once, to append the entry no second time, and
  to ignore `display`. Read as written, the call raises `AttributeError`
  before the turn starts.
- The body of `truncate_output`, `max_output` and the scrollbar flag are not
  modelled. The truncation is an arbitrary function `Policy.truncate`, so no
  property depends on it.
- Threads are not modelled: `blocking=False`, `chat_stream`, `chat_async` and
  `stream=True`. `wait` is modelled only as its result: `None` while
  responding, otherwise what it returns; its sleeping loop is left out.
- The stop event is modelled by the index at which it is first seen set. When
  another thread sets it is not modelled.
- `GeneratorExit` handling is left out. Only the exceptions the modelled code
  itself raises are modelled.
- `_save_conversation` writing the JSON file is not modelled. The date
  (`datetime.now()`) is a parameter.
- Python dict aliasing is not modelled. The aggregator stores the very dict it
  yields, and later concatenation and truncation mutate that dict. The model
  treats values as immutable: yielded chunks are as they were when yielded.
- A chunk without `content` or `type`, and content that is not a string, are
  not modelled. Chunks always have both as strings.
- An empty dict entry (`{}`, which is falsy) is not modelled: dict entries are
  always full messages.
- The first `chat` definition (core/core.py:175-205) is not modelled, because
  the second definition at line 302 replaces it.
- `reset` does not model `computer.terminate()` or the import flag.
- The widget's Qt rendering is left out: text formats, the cursor and
  scrolling. What is shown is an abstract `Display` entry. An exception ends
  the widget's processing of the stream.
- Extensions.Lower: lower-cases ASCII letters only, because Python's full
  Unicode `lower()` is not modelled. The detected language is still the same,
  because the only non-ASCII characters that lower to ASCII give `i` or `k`,
  and no table key contains either.
- Title.IsSpace: follows the list of characters for which Python's
  `str.isspace` holds; Unicode tables are not modelled beyond that list.

=== FILE: aggregator.dfy ===
/**
  The chunk-to-transcript aggregator of `OpenInterpreter._respond_and_store`:
  a fold over the chunks pulled from the response stream that yields framing
  flags and chunks, appends messages to the conversation and concatenates
  content onto the last stored message.
 */
module Aggregator {
  import opened Lmc

  /** The turn-local state of the loop: the open flag base (`last_flag_base`),
      the conversation's messages, everything yielded so far, and the
      exception that ended the loop, if one did. */
  datatype Turn = Turn(
    open: Option<FlagBase>,
    messages: seq<Message>,
    events: seq<Event>,
    fault: Option<Fault>)

  /** The settings the loop reads: `auto_run`, and `truncate_output` with
      `max_output` and the scrollbar flag already applied. The truncation
      body is not part of this model, so it is an arbitrary function. */
  datatype Policy = Policy(autoRun: bool, truncate: string -> string)

  /** The empty console output stored for every confirmation. */
  const ConfirmationPlaceholder: Message :=
    Chunk(Some("computer"), "console", Some("output"), "", None)

  /** The source's match test between the open flag base and a chunk: same
      role and type, and the base's format when it has one. */
  function Matches(base: FlagBase, c: Chunk): (r: bool)
    ensures r <==> c.role == Some(base.role) && c.kind == base.kind && (base.format.None? || c.format == base.format)
  {
    && c.role.Some?
    && base.role == c.role.value
    && base.kind == c.kind
    && (base.format.None? || (c.format.Some? && c.format.value == base.format.value))
  }

  /** The flag base opened by a chunk; console bases never carry a format. */
  function OpenBase(c: Chunk): (b: FlagBase)
    requires c.role.Some?
    ensures b.role == c.role.value && b.kind == c.kind
    ensures b.kind == "console" ==> b.format.None?
    ensures b.kind != "console" ==> b.format == c.format
  {
    FlagBase(c.role.value, c.kind, if c.format.Some? && c.kind != "console" then c.format else None)
  }

  /** The events after the end flag of the open group, if any. */
  function Close(t: Turn): (es: seq<Event>)
    ensures t.open.None? ==> es == t.events
    ensures t.open.Some? ==> es == t.events + [End(t.open.value)]
  {
    if t.open.Some? then t.events + [End(t.open.value)] else t.events
  }

  /** `messages[-1]["content"] += s`. */
  function AppendToLast(ms: seq<Message>, s: string): (r: seq<Message>)
    requires |ms| > 0
    ensures |r| == |ms| && r[..|ms| - 1] == ms[..|ms| - 1]
    ensures r[|ms| - 1] == ms[|ms| - 1].(content := ms[|ms| - 1].content + s)
  {
    ms[..|ms| - 1] + [ms[|ms| - 1].(content := ms[|ms| - 1].content + s)]
  }

  /** `messages[-1]["content"] = s`. */
  function SetLastContent(ms: seq<Message>, s: string): (r: seq<Message>)
    requires |ms| > 0
    ensures |r| == |ms| && r[..|ms| - 1] == ms[..|ms| - 1]
    ensures r[|ms| - 1] == ms[|ms| - 1].(content := s)
  {
    ms[..|ms| - 1] + [ms[|ms| - 1].(content := s)]
  }

  /** What happens after a chunk has been yielded: console output truncates
      the last stored message. The source reads `chunk["format"]` of every
      console chunk here, so a console chunk without a format raises. */
  function AfterYield(t: Turn, c: Chunk, p: Policy): (r: Turn)
    ensures r.open == t.open && r.events == t.events
    ensures Extends(t.messages, r.messages) && |r.messages| == |t.messages|
    ensures r.fault.Some? <==> t.fault.Some? || (c.kind == "console" && (c.format.None? || (c.format == Some("output") && |t.messages| == 0)))
    ensures c.kind != "console" || c.format != Some("output") ==> r.messages == t.messages
    ensures c.kind == "console" && c.format == Some("output") && |t.messages| > 0 ==>
      r.messages == SetLastContent(t.messages, p.truncate(t.messages[|t.messages| - 1].content))
  {
    if c.kind != "console" then t
    else if c.format.None? then t.(fault := Some(KeyError("format")))
    else if c.format.value != "output" then t
    else if |t.messages| == 0 then t.(fault := Some(IndexError))
    else t.(messages := SetLastContent(t.messages, p.truncate(t.messages[|t.messages| - 1].content)))
  }

  /** A confirmation chunk: close the open group, yield the chunk unless
      auto-run is on, and store the empty console output placeholder. */
  function Confirm(t: Turn, c: Chunk, p: Policy): (r: Turn)
    ensures |t.events| <= |r.events| && r.events[..|t.events|] == t.events
    ensures Extends(t.messages, r.messages) && |r.messages| == |t.messages| + 1
  {
    var shown := if p.autoRun then [] else [Yield(c)];
    t.(open := None, events := Close(t) + shown, messages := t.messages + [ConfirmationPlaceholder])
  }

  /** A chunk that matches the open group: its content goes onto the last
      stored message unless it is an active-line chunk. */
  function Extend(t: Turn, c: Chunk, p: Policy): (r: Turn)
    ensures |t.events| <= |r.events| && r.events[..|t.events|] == t.events
    ensures Extends(t.messages, r.messages) && |r.messages| == |t.messages|
  {
    if IsActiveLine(c) then
      AfterYield(t.(events := t.events + [Yield(c)]), c, p)
    else if |t.messages| == 0 then
      t.(fault := Some(IndexError))
    else
      AfterYield(t.(messages := AppendToLast(t.messages, c.content), events := t.events + [Yield(c)]), c, p)
  }

  /** A chunk that does not match: end the open group, start a new one, store
      the chunk unless it is an active-line chunk. Building the new flag base
      reads `chunk["role"]`, which raises when the chunk has none. */
  function Open(t: Turn, c: Chunk, p: Policy): (r: Turn)
    ensures |t.events| <= |r.events| && r.events[..|t.events|] == t.events
    ensures Extends(t.messages, r.messages) && |r.messages| <= |t.messages| + 1
  {
    if c.role.None? then
      t.(events := Close(t), fault := Some(KeyError("role")))
    else
      var base := OpenBase(c);
      var stored := if IsActiveLine(c) then t.messages else t.messages + [c];
      AfterYield(t.(open := Some(base), messages := stored, events := Close(t) + [Start(base), Yield(c)]), c, p)
  }

  /** One iteration of the loop body for one pulled chunk. */
  function Step(t: Turn, c: Chunk, p: Policy): (r: Turn)
    requires t.fault.None?
    ensures c.content == "" ==> r == t
    ensures |t.events| <= |r.events| && r.events[..|t.events|] == t.events
    ensures Extends(t.messages, r.messages)
    ensures |r.messages| <= |t.messages| + 1
  {
    if c.content == "" then t
    else if c.kind == "confirmation" then Confirm(t, c, p)
    else if t.open.Some? && Matches(t.open.value, c) then Extend(t, c, p)
    else Open(t, c, p)
  }

  /** The `for chunk in respond(self)` loop over the pulled chunks, which an
      exception ends. */
  function Feed(t: Turn, cs: seq<Chunk>, p: Policy): (r: Turn)
    ensures |t.events| <= |r.events| && r.events[..|t.events|] == t.events
    ensures |t.messages| <= |r.messages| <= |t.messages| + |cs|
    ensures t.fault.Some? ==> r == t
    decreases |cs|
  {
    if |cs| == 0 || t.fault.Some? then t else Feed(Step(t, cs[0], p), cs[1..], p)
  }

  /** The chunks the loop processes: a stop event observed when chunk `k`
      has been pulled breaks the loop before that chunk. */
  function Pulled(cs: seq<Chunk>, stop: Option<nat>): (r: seq<Chunk>)
    ensures stop.Some? && stop.value < |cs| ==> r == cs[..stop.value]
    ensures stop.None? || stop.value >= |cs| ==> r == cs
  {
    if stop.Some? && stop.value < |cs| then cs[..stop.value] else cs
  }

  /** `_respond_and_store`: the loop, then the final end flag, which is
      yielded both when the stream is exhausted and after the stop-event
      break, but not when an exception ends the loop. The framing theorem
      about it is `AggregatorProperties.RespondAndStoreFraming`. */
  function RespondAndStore(messages: seq<Message>, cs: seq<Chunk>, stop: Option<nat>, p: Policy): (r: Turn)
    ensures r.fault.None? ==> r.open.None?
    ensures |messages| <= |r.messages| <= |messages| + |Pulled(cs, stop)| <= |messages| + |cs|
    ensures stop == Some(0) || |cs| == 0 ==> r == Turn(None, messages, [], None)
  {
    var t := Feed(Turn(None, messages, [], None), Pulled(cs, stop), p);
    if t.fault.None? then t.(open := None, events := Close(t)) else t
  }
}

=== FILE: aggregator_properties.dfy ===
/**
  What `_respond_and_store` promises: the per-chunk rules (empty skip,
  confirmation, match, mismatch), and over a whole turn balanced framing,
  every surviving chunk yielded once in order, a store that only grows at its
  end, active-line content never stored, and a closing end flag even after a
  stop-event break.
 */
module AggregatorProperties {
  import opened Lmc
  import opened Aggregator
  import opened Framing

  /** The end flag the loop yields for the group open before a chunk. */
  function Closing(open: Option<FlagBase>): seq<Event> {
    if open.Some? then [End(open.value)] else []
  }

  predicate IsConsoleOutput(c: Chunk) {
    c.kind == "console" && c.format == Some("output")
  }

  // ---------------------------------------------------------------------
  // The match rule

  /** A chunk always extends the group it opens. */
  lemma {:induction false} OwnBaseMatches(c: Chunk)
    requires c.role.Some?
    ensures Matches(OpenBase(c), c)
  {
  }

  /** A console group takes every console chunk of the same role, whatever
      its format: active_line, output, or any other. */
  lemma {:induction false} ConsoleGroupsIgnoreFormat(first: Chunk, next: Chunk)
    requires first.role.Some? && first.kind == "console"
    ensures Matches(OpenBase(first), next) <==> next.role == first.role && next.kind == "console"
  {
  }

  /** Any other group takes only chunks of the same role and type and, when
      the opening chunk had a format, the same format. */
  lemma {:induction false} OtherGroupsKeyOnFormat(first: Chunk, next: Chunk)
    requires first.role.Some? && first.kind != "console"
    ensures Matches(OpenBase(first), next) <==>
      next.role == first.role && next.kind == first.kind && (first.format.None? || next.format == first.format)
  {
  }

  // ---------------------------------------------------------------------
  // One chunk

  /** A confirmation closes the open group, is yielded only without auto-run,
      is not stored, and appends exactly one empty console output message. */
  lemma {:induction false} StepConfirmation(t: Turn, c: Chunk, p: Policy)
    requires t.fault.None? && c.content != "" && c.kind == "confirmation"
    ensures var r := Step(t, c, p);
      && r.fault.None?
      && r.open.None?
      && r.messages == t.messages + [ConfirmationPlaceholder]
      && r.events == t.events + Closing(t.open) + (if p.autoRun then [] else [Yield(c)])
  {
  }

  /** A chunk that extends the open group is yielded alone; an active-line
      chunk leaves the store as it was, any other chunk's content is
      concatenated onto the last stored message, and the number of messages
      does not change. */
  lemma {:induction false} StepMatch(t: Turn, c: Chunk, p: Policy)
    requires t.fault.None? && c.content != "" && c.kind != "confirmation"
    requires t.open.Some? && Matches(t.open.value, c)
    requires IsActiveLine(c) || |t.messages| > 0
    requires c.kind == "console" ==> c.format.Some?
    ensures var r := Step(t, c, p);
      && r.fault.None?
      && r.open == t.open
      && r.events == t.events + [Yield(c)]
      && |r.messages| == |t.messages|
      && (IsActiveLine(c) ==> r.messages == t.messages)
      && (!IsActiveLine(c) && !IsConsoleOutput(c) ==> r.messages == AppendToLast(t.messages, c.content))
      && (IsConsoleOutput(c) ==>
            r.messages == SetLastContent(t.messages, p.truncate(t.messages[|t.messages| - 1].content + c.content)))
  {
  }

  /** A chunk that does not extend the open group: one end flag for the old
      group, one start flag for the new one, the chunk stored unless it is
      an active-line chunk, then the chunk itself. */
  lemma {:induction false} StepMismatch(t: Turn, c: Chunk, p: Policy)
    requires t.fault.None? && c.content != "" && c.kind != "confirmation"
    requires !(t.open.Some? && Matches(t.open.value, c))
    requires c.role.Some?
    requires c.kind == "console" ==> c.format.Some?
    ensures var r := Step(t, c, p);
      && r.fault.None?
      && r.open == Some(OpenBase(c))
      && r.events == t.events + Closing(t.open) + [Start(OpenBase(c)), Yield(c)]
      && (IsActiveLine(c) ==> r.messages == t.messages)
      && (!IsActiveLine(c) && !IsConsoleOutput(c) ==> r.messages == t.messages + [c])
      && (IsConsoleOutput(c) ==> r.messages == t.messages + [c.(content := p.truncate(c.content))])
  {
    var r := Step(t, c, p);
    if IsConsoleOutput(c) {
      var stored := t.messages + [c];
      assert stored[..|stored| - 1] == t.messages;
    }
  }

  /** The errors: a chunk without a role that opens a group raises after the
      old group's end flag; a content chunk extending a group while the store
      is empty raises before anything is yielded; a console chunk without a
      format raises right after it is yielded. */
  lemma {:induction false} StepFaults(t: Turn, c: Chunk, p: Policy)
    requires t.fault.None? && c.content != "" && c.kind != "confirmation"
    ensures var r := Step(t, c, p);
      && (!(t.open.Some? && Matches(t.open.value, c)) && c.role.None? ==>
            r.fault == Some(KeyError("role")) && r.events == t.events + Closing(t.open) && r.messages == t.messages)
      && (t.open.Some? && Matches(t.open.value, c) && !IsActiveLine(c) && |t.messages| == 0 ==>
            r.fault == Some(IndexError) && r.events == t.events && r.messages == t.messages)
      && (c.kind == "console" && c.format.None? && (c.role.Some? || (t.open.Some? && Matches(t.open.value, c))) && |t.messages| > 0 ==>
            r.fault == Some(KeyError("format")) && r.events[|r.events| - 1] == Yield(c))
  {
  }

  /** Active-line chunks never change the stored messages. */
  lemma {:induction false} StepActiveLineStoresNothing(t: Turn, c: Chunk, p: Policy)
    requires t.fault.None? && IsActiveLine(c) && c.kind != "confirmation"
    ensures Step(t, c, p).messages == t.messages
  {
  }

  // ---------------------------------------------------------------------
  // Framing and yields over one step

  /** A chunk survives to the output stream unless it is empty, or it is a
      confirmation under auto-run. */
  predicate Survives(c: Chunk, autoRun: bool) {
    c.content != "" && !(c.kind == "confirmation" && autoRun)
  }

  function Surviving(cs: seq<Chunk>, autoRun: bool): (r: seq<Chunk>)
    ensures |r| <= |cs|
  {
    if |cs| == 0 then []
    else (if Survives(cs[0], autoRun) then [cs[0]] else []) + Surviving(cs[1..], autoRun)
  }

  /** The end flag that closes the open group leaves a reader outside any
      group and yields no chunk. */
  lemma {:induction false} ClosingFrames(open: Option<FlagBase>)
    ensures Scan(Framed(open), Closing(open)) == Framed(None)
    ensures Yields(Closing(open)) == []
    ensures Flags(Closing(open)) == Closing(open)
  {
    if open.Some? {
      ScanOne(Framed(open), End(open.value));
      YieldsOne(End(open.value));
      FlagsOne(End(open.value));
    }
  }

  /** The framing and yield facts of one step, given the events it adds. */
  predicate StepAdds(t: Turn, r: Turn, d: seq<Event>, c: Chunk, autoRun: bool) {
    && r.events == t.events + d
    && Scan(Framed(t.open), d) != Broken
    && (r.fault.None? ==> Scan(Framed(t.open), d) == Framed(r.open))
    && (r.fault.None? ==> Yields(d) == (if Survives(c, autoRun) then [c] else []))
  }

  lemma {:induction false} ConfirmAdds(t: Turn, c: Chunk, p: Policy)
    requires c.content != "" && c.kind == "confirmation"
    ensures exists d :: StepAdds(t, Confirm(t, c, p), d, c, p.autoRun)
  {
    var shown := if p.autoRun then [] else [Yield(c)];
    var d := Closing(t.open) + shown;
    var r := Confirm(t, c, p);
    assert r.events == t.events + d && r.open.None?;
    ConfirmEvents(t.open, c, p.autoRun);
    assert StepAdds(t, r, d, c, p.autoRun);
  }

  /** The events of a confirmation: the old group's end flag, then the
      confirmation itself unless auto-run is on. */
  lemma {:induction false} ConfirmEvents(open: Option<FlagBase>, c: Chunk, autoRun: bool)
    requires c.kind == "confirmation"
    ensures var d := Closing(open) + (if autoRun then [] else [Yield(c)]);
      && Scan(Framed(open), d) == Framed(None)
      && Yields(d) == (if autoRun then [] else [c])
  {
    var shown := if autoRun then [] else [Yield(c)];
    ClosingFrames(open);
    ScanAppend(Framed(open), Closing(open), shown);
    YieldsAppend(Closing(open), shown);
    if !autoRun {
      ScanOne(Framed(None), Yield(c));
      YieldsOne(Yield(c));
    } else {
      assert Closing(open) + shown == Closing(open);
    }
  }

  lemma {:induction false} ExtendAdds(t: Turn, c: Chunk, p: Policy)
    requires c.content != "" && c.kind != "confirmation"
    requires t.open.Some? && Matches(t.open.value, c)
    ensures exists d :: StepAdds(t, Extend(t, c, p), d, c, p.autoRun)
  {
    var r := Extend(t, c, p);
    if IsActiveLine(c) || |t.messages| > 0 {
      ScanOne(Framed(t.open), Yield(c));
      YieldsOne(Yield(c));
      assert StepAdds(t, r, [Yield(c)], c, p.autoRun);
    } else {
      assert StepAdds(t, r, [], c, p.autoRun);
    }
  }

  /** Closing the open group, then starting a group and yielding a chunk it
      matches, leaves the reader inside the new group having seen that chunk. */
  lemma {:induction false} ReopenFrames(open: Option<FlagBase>, b: FlagBase, c: Chunk)
    requires Matches(b, c) && c.kind != "confirmation"
    ensures Scan(Framed(open), Closing(open) + [Start(b), Yield(c)]) == Framed(Some(b))
    ensures Yields(Closing(open) + [Start(b), Yield(c)]) == [c]
  {
    var tail := [Start(b), Yield(c)];
    ClosingFrames(open);
    ScanAppend(Framed(open), Closing(open), tail);
    YieldsAppend(Closing(open), tail);
    assert tail == [Start(b)] + [Yield(c)];
    ScanAppend(Framed(None), [Start(b)], [Yield(c)]);
    YieldsAppend([Start(b)], [Yield(c)]);
    ScanOne(Framed(None), Start(b));
    ScanOne(Framed(Some(b)), Yield(c));
    YieldsOne(Start(b));
    YieldsOne(Yield(c));
    assert Scan(Framed(None), tail) == Framed(Some(b));
    assert Yields(tail) == [] + [c] == [c];
    assert Yields(Closing(open) + tail) == [] + [c];
  }

  lemma {:induction false} OpenAdds(t: Turn, c: Chunk, p: Policy)
    requires c.content != "" && c.kind != "confirmation"
    ensures exists d :: StepAdds(t, Open(t, c, p), d, c, p.autoRun)
  {
    var r := Open(t, c, p);
    ClosingFrames(t.open);
    if c.role.None? {
      assert StepAdds(t, r, Closing(t.open), c, p.autoRun);
    } else {
      var b := OpenBase(c);
      OwnBaseMatches(c);
      ReopenFrames(t.open, b, c);
      var d := Closing(t.open) + [Start(b), Yield(c)];
      assert r.events == t.events + d && r.open == Some(b);
      assert StepAdds(t, r, d, c, p.autoRun);
    }
  }

  /** One step keeps the stream framed; when it raises nothing the reader's
      open group is the loop's `last_flag_base`, and the chunk is yielded iff
      it survives. */
  lemma {:induction false} StepFramedAndYields(t: Turn, c: Chunk, p: Policy)
    requires t.fault.None?
    requires Scan(Framed(None), t.events) == Framed(t.open)
    ensures var r := Step(t, c, p);
      && Scan(Framed(None), r.events) != Broken
      && (r.fault.None? ==> Scan(Framed(None), r.events) == Framed(r.open))
      && (r.fault.None? ==> Yields(r.events) == Yields(t.events) + (if Survives(c, p.autoRun) then [c] else []))
  {
    var r := Step(t, c, p);
    if c.content == "" {
      assert Yields(t.events) + [] == Yields(t.events);
      return;
    }
    if c.kind == "confirmation" {
      ConfirmAdds(t, c, p);
    } else if t.open.Some? && Matches(t.open.value, c) {
      ExtendAdds(t, c, p);
    } else {
      OpenAdds(t, c, p);
    }
    var d :| StepAdds(t, r, d, c, p.autoRun);
    ScanAppend(Framed(None), t.events, d);
    YieldsAppend(t.events, d);
  }

  // ---------------------------------------------------------------------
  // A whole turn

  /** The loop only grows the store at its end. */
  lemma {:induction false} FeedExtends(t: Turn, cs: seq<Chunk>, p: Policy)
    ensures Extends(t.messages, Feed(t, cs, p).messages)
    decreases |cs|
  {
    if |cs| > 0 && t.fault.None? {
      var s := Step(t, cs[0], p);
      FeedExtends(s, cs[1..], p);
      ExtendsTransitive(t.messages, s.messages, Feed(s, cs[1..], p).messages);
    }
  }

  /** The loop keeps the stream framed and, when nothing raises, yields
      exactly the surviving chunks in input order. */
  lemma {:induction false} FeedFramedAndYields(t: Turn, cs: seq<Chunk>, p: Policy)
    requires t.fault.None?
    requires Scan(Framed(None), t.events) == Framed(t.open)
    ensures var r := Feed(t, cs, p);
      && Scan(Framed(None), r.events) != Broken
      && (r.fault.None? ==> Scan(Framed(None), r.events) == Framed(r.open))
      && (r.fault.None? ==> Yields(r.events) == Yields(t.events) + Surviving(cs, p.autoRun))
    decreases |cs|
  {
    if |cs| == 0 {
      assert Yields(t.events) + [] == Yields(t.events);
      return;
    }
    var s := Step(t, cs[0], p);
    StepFramedAndYields(t, cs[0], p);
    if s.fault.Some? {
      assert Feed(t, cs, p) == s;
      return;
    }
    var r := Feed(s, cs[1..], p);
    assert Feed(t, cs, p) == r;
    FeedFramedAndYields(s, cs[1..], p);
    if r.fault.None? {
      var keep := if Survives(cs[0], p.autoRun) then [cs[0]] else [];
      var rest := Surviving(cs[1..], p.autoRun);
      assert Surviving(cs, p.autoRun) == keep + rest;
      assert Yields(r.events) == Yields(s.events) + rest;
      assert Yields(s.events) == Yields(t.events) + keep;
      ConcatAssoc(Yields(t.events), keep, rest);
    }
  }

  /** Closing the open group at the end of a turn leaves the stream closed
      with alternating flags ending in an end flag, and yields nothing. */
  lemma {:induction false} CloseEndsTheStream(es: seq<Event>, open: Option<FlagBase>)
    requires Scan(Framed(None), es) == Framed(open)
    ensures var closed := es + Closing(open);
      && Scan(Framed(None), closed) == Framed(None)
      && Alternating(Flags(closed))
      && |Flags(closed)| % 2 == 0
      && (|Flags(closed)| > 0 ==> Flags(closed)[|Flags(closed)| - 1].End?)
      && Yields(closed) == Yields(es)
  {
    var closed := es + Closing(open);
    ScanAppend(Framed(None), es, Closing(open));
    YieldsAppend(es, Closing(open));
    ClosingFrames(open);
    assert Yields(closed) == Yields(es) + [];
    ClosedStreamEndsWithEnd(closed);
    FramedFlagsAlternate(closed, None);
  }

  /** The main theorem of the aggregator. Over a whole turn the yielded stream
      is framed: start and end flags alternate, each chunk other than a
      confirmation is yielded inside a group it matches. When nothing raises
      the last group is closed (one trailing end flag, also after a stop-event
      break) and the yielded chunks are exactly the surviving pulled chunks in
      order. The messages before the turn are untouched except for the
      content of the last one. */
  lemma {:induction false} RespondAndStoreFraming(ms: seq<Message>, cs: seq<Chunk>, stop: Option<nat>, p: Policy)
    ensures var r := RespondAndStore(ms, cs, stop, p);
      && Scan(Framed(None), r.events) != Broken
      && Alternating(Flags(r.events))
      && (r.fault.None? ==> Scan(Framed(None), r.events) == Framed(None))
      && (r.fault.None? ==> |Flags(r.events)| % 2 == 0)
      && (r.fault.None? && |Flags(r.events)| > 0 ==> Flags(r.events)[|Flags(r.events)| - 1].End?)
      && (r.fault.None? ==> Yields(r.events) == Surviving(Pulled(cs, stop), p.autoRun))
      && Extends(ms, r.messages)
  {
    var t0 := Turn(None, ms, [], None);
    var t := Feed(t0, Pulled(cs, stop), p);
    FeedFramedAndYields(t0, Pulled(cs, stop), p);
    FeedExtends(t0, Pulled(cs, stop), p);
    var r := RespondAndStore(ms, cs, stop, p);
    if t.fault.None? {
      assert r.events == t.events + Closing(t.open);
      CloseEndsTheStream(t.events, t.open);
    } else {
      assert r == t;
      FramedFlagsAlternate(r.events, Scan(Framed(None), r.events).open);
    }
  }

  /** A stop event observed when chunk `k` is pulled behaves exactly like a
      stream that ends before chunk `k`: the open group still gets its end
      flag, and the chunks before `k` are all yielded. */
  lemma {:induction false} StopStillCloses(ms: seq<Message>, cs: seq<Chunk>, k: nat, p: Policy)
    requires k < |cs|
    ensures RespondAndStore(ms, cs, Some(k), p) == RespondAndStore(ms, cs[..k], None, p)
    ensures var r := RespondAndStore(ms, cs, Some(k), p);
      r.fault.None? ==>
        && Yields(r.events) == Surviving(cs[..k], p.autoRun)
        && (|Flags(r.events)| > 0 ==> Flags(r.events)[|Flags(r.events)| - 1].End?)
  {
    RespondAndStoreFraming(ms, cs, Some(k), p);
  }

  // ---------------------------------------------------------------------
  // Active-line exclusion over a whole turn

  /** Two chunk streams that differ at most in the content of non-empty
      active-line chunks. */
  predicate SameButActiveLineContent(cs: seq<Chunk>, ds: seq<Chunk>) {
    && |cs| == |ds|
    && forall i :: 0 <= i < |cs| ==>
         cs[i] == ds[i] ||
         (&& IsActiveLine(cs[i]) && cs[i].kind != "confirmation"
          && cs[i].content != "" && ds[i].content != ""
          && ds[i] == cs[i].(content := ds[i].content))
  }

  /** Store, open group and error of the loop do not depend on what the
      active-line chunks say. */
  lemma {:induction false} FeedIgnoresActiveLineContent(t: Turn, u: Turn, cs: seq<Chunk>, ds: seq<Chunk>, p: Policy)
    requires t.open == u.open && t.messages == u.messages && t.fault == u.fault
    requires SameButActiveLineContent(cs, ds)
    ensures var r, q := Feed(t, cs, p), Feed(u, ds, p);
      r.messages == q.messages && r.open == q.open && r.fault == q.fault
    decreases |cs|
  {
    if |cs| == 0 || t.fault.Some? {
      return;
    }
    var c, d := cs[0], ds[0];
    var s, v := Step(t, c, p), Step(u, d, p);
    if c != d {
      StepActiveLineStoresNothing(t, c, p);
      StepActiveLineStoresNothing(u, d, p);
      assert s.open == v.open && s.fault == v.fault;
    } else {
      assert s.open == v.open && s.fault == v.fault && s.messages == v.messages;
    }
    assert SameButActiveLineContent(cs[1..], ds[1..]) by {
      forall i | 0 <= i < |cs| - 1
        ensures cs[1..][i] == ds[1..][i] ||
          (&& IsActiveLine(cs[1..][i]) && cs[1..][i].kind != "confirmation"
           && cs[1..][i].content != "" && ds[1..][i].content != ""
           && ds[1..][i] == cs[1..][i].(content := ds[1..][i].content))
      {
        assert cs[1..][i] == cs[i + 1] && ds[1..][i] == ds[i + 1];
      }
    }
    FeedIgnoresActiveLineContent(s, v, cs[1..], ds[1..], p);
  }

  /** The stored transcript of a turn never contains what an active-line
      chunk said: changing that content changes nothing in the store. */
  lemma {:induction false} ActiveLineContentNeverStored(ms: seq<Message>, cs: seq<Chunk>, ds: seq<Chunk>, p: Policy)
    requires SameButActiveLineContent(cs, ds)
    ensures RespondAndStore(ms, cs, None, p).messages == RespondAndStore(ms, ds, None, p).messages
    ensures RespondAndStore(ms, cs, None, p).fault == RespondAndStore(ms, ds, None, p).fault
  {
    FeedIgnoresActiveLineContent(Turn(None, ms, [], None), Turn(None, ms, [], None), cs, ds, p);
  }

  // ---------------------------------------------------------------------
  // Grouping

  /** Chunks that all extend a group with base `b` and store content there. */
  predicate ExtendsGroup(b: FlagBase, cs: seq<Chunk>) {
    forall i :: 0 <= i < |cs| ==>
      && Matches(b, cs[i]) && cs[i].content != ""
      && cs[i].kind != "console" && cs[i].kind != "confirmation" && !IsActiveLine(cs[i])
  }

  lemma {:induction false} AppendToLastTwice(ms: seq<Message>, a: string, b: string)
    requires |ms| > 0
    ensures AppendToLast(AppendToLast(ms, a), b) == AppendToLast(ms, a + b)
  {
    var l := ms[|ms| - 1];
    assert l.content + a + b == l.content + (a + b);
  }

  /** Inside an open group the loop concatenates every chunk's content onto
      the last stored message, in order, and yields only the chunks. */
  lemma {:induction false} FeedWithinGroup(t: Turn, cs: seq<Chunk>, p: Policy)
    requires t.fault.None? && t.open.Some? && |t.messages| > 0
    requires ExtendsGroup(t.open.value, cs)
    ensures var r := Feed(t, cs, p);
      && r.fault.None?
      && r.open == t.open
      && r.messages == AppendToLast(t.messages, Contents(cs))
      && Flags(r.events) == Flags(t.events)
      && Yields(r.events) == Yields(t.events) + cs
    decreases |cs|
  {
    if |cs| == 0 {
      var n := |t.messages|;
      assert t.messages[n - 1].(content := t.messages[n - 1].content + "") == t.messages[n - 1];
      assert t.messages[..n - 1] + [t.messages[n - 1]] == t.messages;
      assert Yields(t.events) + cs == Yields(t.events);
      return;
    }
    var c := cs[0];
    var s := Step(t, c, p);
    assert ExtendsGroup(t.open.value, [c]);
    GroupStep(t, c, p);
    ExtendsGroupTail(t.open.value, cs);
    var r := Feed(s, cs[1..], p);
    assert Feed(t, cs, p) == r;
    FeedWithinGroup(s, cs[1..], p);
    AppendToLastTwice(t.messages, c.content, Contents(cs[1..]));
    assert Contents(cs) == c.content + Contents(cs[1..]);
    ConcatAssoc(Yields(t.events), [c], cs[1..]);
    assert [c] + cs[1..] == cs;
  }

  /** One chunk inside an open group. */
  lemma {:induction false} GroupStep(t: Turn, c: Chunk, p: Policy)
    requires t.fault.None? && t.open.Some? && |t.messages| > 0
    requires ExtendsGroup(t.open.value, [c])
    ensures var s := Step(t, c, p);
      && s == t.(messages := AppendToLast(t.messages, c.content), events := t.events + [Yield(c)])
      && Flags(s.events) == Flags(t.events)
      && Yields(s.events) == Yields(t.events) + [c]
  {
    assert [c][0] == c;
    var s := Step(t, c, p);
    assert s == Extend(t, c, p);
    FlagsAppend(t.events, [Yield(c)]);
    YieldsAppend(t.events, [Yield(c)]);
    FlagsOne(Yield(c));
    YieldsOne(Yield(c));
    assert Flags(t.events) + [] == Flags(t.events);
  }

  lemma {:induction false} ExtendsGroupTail(b: FlagBase, cs: seq<Chunk>)
    requires |cs| > 0 && ExtendsGroup(b, cs)
    ensures ExtendsGroup(b, cs[1..])
  {
    forall i | 0 <= i < |cs| - 1
      ensures cs[1..][i] == cs[i + 1]
    {
    }
  }

  /** Chunks that all repeat the first one's role, type and format. */
  predicate OneGroup(cs: seq<Chunk>) {
    && |cs| > 0 && cs[0].role.Some?
    && (forall i :: 0 <= i < |cs| ==>
         && cs[i].role == cs[0].role && cs[i].kind == cs[0].kind && cs[i].format == cs[0].format
         && cs[i].content != "")
    && cs[0].kind != "console" && cs[0].kind != "confirmation" && !IsActiveLine(cs[0])
  }

  /** The loop over one group, before the final end flag. */
  lemma {:induction false} FeedOneGroup(ms: seq<Message>, cs: seq<Chunk>, p: Policy)
    requires OneGroup(cs)
    ensures var t := Feed(Turn(None, ms, [], None), cs, p);
      && t.fault.None?
      && t.open == Some(OpenBase(cs[0]))
      && t.messages == ms + [cs[0].(content := Contents(cs))]
      && Flags(t.events) == [Start(OpenBase(cs[0]))]
      && Yields(t.events) == cs
  {
    var c := cs[0];
    var b := OpenBase(c);
    var t0 := Turn(None, ms, [], None);
    var s := Step(t0, c, p);
    StepMismatch(t0, c, p);
    assert s == t0.(open := Some(b), messages := ms + [c], events := [Start(b), Yield(c)]);
    assert ExtendsGroup(b, cs[1..]) by {
      forall i | 0 <= i < |cs| - 1
        ensures cs[1..][i] == cs[i + 1]
      {
      }
    }
    FeedWithinGroup(s, cs[1..], p);
    var t := Feed(s, cs[1..], p);
    assert Feed(t0, cs, p) == t;
    OpeningEvents(b, c);
    AppendToLastSnoc(ms, c, Contents(cs[1..]));
    assert Contents(cs) == c.content + Contents(cs[1..]);
    assert [c] + cs[1..] == cs;
  }

  /** Chunks of one role, type and format (other than console) form exactly
      one message whose content is the concatenation of theirs, framed by
      one start and one end flag. */
  lemma {:induction false} GroupingInvariant(ms: seq<Message>, cs: seq<Chunk>, p: Policy)
    requires OneGroup(cs)
    ensures var r := RespondAndStore(ms, cs, None, p);
      && r.fault.None?
      && r.messages == ms + [cs[0].(content := Contents(cs))]
      && Flags(r.events) == [Start(OpenBase(cs[0])), End(OpenBase(cs[0]))]
      && Yields(r.events) == cs
  {
    var b := OpenBase(cs[0]);
    FeedOneGroup(ms, cs, p);
    var t := Feed(Turn(None, ms, [], None), cs, p);
    var r := RespondAndStore(ms, cs, None, p);
    assert r.events == t.events + [End(b)];
    FlagsAppend(t.events, [End(b)]);
    YieldsAppend(t.events, [End(b)]);
    FlagsOne(End(b));
    YieldsOne(End(b));
    assert Yields(r.events) == cs + [];
  }

  lemma OpeningEvents(b: FlagBase, c: Chunk)
    ensures Flags([Start(b), Yield(c)]) == [Start(b)]
    ensures Yields([Start(b), Yield(c)]) == [c]
  {
    assert [Start(b), Yield(c)] == [Start(b)] + [Yield(c)];
    FlagsAppend([Start(b)], [Yield(c)]);
    YieldsAppend([Start(b)], [Yield(c)]);
    FlagsOne(Start(b));
    FlagsOne(Yield(c));
    YieldsOne(Start(b));
    YieldsOne(Yield(c));
  }

  lemma AppendToLastSnoc(ms: seq<Message>, c: Message, s: string)
    ensures AppendToLast(ms + [c], s) == ms + [c.(content := c.content + s)]
  {
    assert (ms + [c])[..|ms|] == ms;
  }

  // ---------------------------------------------------------------------
  // Worked streams

  function Policy0(autoRun: bool): Policy {
    Policy(autoRun, s => s)
  }

  /** Two assistant message fragments. */
  const HelloWorld: seq<Chunk> := [
    Chunk(Some("assistant"), "message", None, "Hello", None),
    Chunk(Some("assistant"), "message", None, " world", None)]

  lemma HelloWorldIsOneGroup()
    ensures OneGroup(HelloWorld)
    ensures Contents(HelloWorld) == "Hello world"
  {
    var cs := HelloWorld;
    assert !IsActiveLine(cs[0]);
    forall i | 0 <= i < |cs|
      ensures cs[i].role == cs[0].role && cs[i].kind == cs[0].kind && cs[i].format == cs[0].format
      ensures cs[i].content != ""
    {
      assert i == 0 || i == 1;
    }
    assert Contents(cs[1..][1..]) == "";
    assert Contents(cs) == "Hello" + " world" == "Hello world";
  }

  /** The two fragments become one message "Hello world". */
  lemma {:induction false} ScenarioOneMessage()
    ensures var r := RespondAndStore([], HelloWorld, None, Policy0(false));
      && r.fault.None?
      && r.messages == [Chunk(Some("assistant"), "message", None, "Hello world", None)]
      && Flags(r.events) == [Start(FlagBase("assistant", "message", None)), End(FlagBase("assistant", "message", None))]
  {
    HelloWorldIsOneGroup();
    GroupingInvariant([], HelloWorld, Policy0(false));
    var m := HelloWorld[0].(content := Contents(HelloWorld));
    assert m == Chunk(Some("assistant"), "message", None, "Hello world", None);
    assert [] + [m] == [m];
  }

  /** A code block followed by an active-line chunk and then console output:
      the active-line chunk opens the console group without storing anything,
      so the output is concatenated onto the code message, which is the last
      stored message, and that message is then truncated. */
  lemma {:induction false} ScenarioOutputJoinsCodeMessage(trunc: string -> string)
    ensures var r := RespondAndStore([], [
        Chunk(Some("assistant"), "code", Some("python"), "print(1)", None),
        Chunk(Some("computer"), "console", Some("active_line"), "1", None),
        Chunk(Some("computer"), "console", Some("output"), "1\n", None)], None, Policy(false, trunc));
      && r.fault.None?
      && r.messages == [Chunk(Some("assistant"), "code", Some("python"), trunc("print(1)" + "1\n"), None)]
  {
    var code := Chunk(Some("assistant"), "code", Some("python"), "print(1)", None);
    var line := Chunk(Some("computer"), "console", Some("active_line"), "1", None);
    var out := Chunk(Some("computer"), "console", Some("output"), "1\n", None);
    var cs, p := [code, line, out], Policy(false, trunc);
    var t0 := Turn(None, [], [], None);
    var t1 := Step(t0, code, p);
    assert t1.open == Some(OpenBase(code)) && t1.messages == [code] && t1.fault.None?;
    var t2 := Step(t1, line, p);
    assert t2.open == Some(OpenBase(line)) && t2.messages == [code] && t2.fault.None?;
    var t3 := Step(t2, out, p);
    assert Matches(OpenBase(line), out);
    assert t3.messages == [code.(content := trunc("print(1)" + "1\n"))] && t3.fault.None?;
    assert Feed(t0, cs, p) == Feed(t1, cs[1..], p);
    assert Feed(t1, cs[1..], p) == Feed(t2, cs[2..], p);
    assert Feed(t2, cs[2..], p) == Feed(t3, cs[3..], p);
  }

  /** A confirmation while a code group is open closes the group and stores
      one empty console output; it is yielded only without auto-run. */
  lemma {:induction false} ScenarioConfirmation(autoRun: bool)
    ensures var code := Chunk(Some("assistant"), "code", Some("python"), "x = 1", None);
      var confirm := Chunk(Some("assistant"), "confirmation", None, "x = 1", None);
      var r := RespondAndStore([], [code, confirm], None, Policy0(autoRun));
      && r.fault.None?
      && r.messages == [code, ConfirmationPlaceholder]
      && r.events == [Start(OpenBase(code)), Yield(code), End(OpenBase(code))]
           + (if autoRun then [] else [Yield(confirm)])
  {
  }
}

=== FILE: chat_widget.dfy ===
/**
  The GUI chat widget's consumer of the interpreter's output,
  `ChatWidget.handle_interpreter_output`: it buffers message and code
  content between start and end flags, shows each finished group, and shows
  console output at once.
 */
module ChatWidget {
  import opened Lmc
  import opened Aggregator
  import opened Framing
  import AggregatorProperties

  /** The keys of a yielded dict that the widget reads. Chunks and flags
      from the aggregator never carry a `language` key. */
  datatype Response = Response(
    kind: string,
    format: Option<string>,
    content: Option<string>,
    start: bool,
    end: bool,
    language: Option<string>)

  /** An aggregator event as the dict the widget receives. */
  function FromEvent(e: Event): (r: Response)
    ensures r.language.None?
    ensures r.start <==> e.Start?
    ensures r.end <==> e.End?
    ensures r.content.Some? <==> e.Yield?
    ensures e.Yield? ==> r.kind == e.chunk.kind && r.format == e.chunk.format && r.content == Some(e.chunk.content)
    ensures !e.Yield? ==> r.kind == e.base.kind && r.format == e.base.format
  {
    match e
    case Start(b) => Response(b.kind, b.format, None, true, false, None)
    case End(b) => Response(b.kind, b.format, None, false, true, None)
    case Yield(c) => Response(c.kind, c.format, Some(c.content), false, false, None)
  }

  /** `current_message`: its role, its content so far, and the language key
      that only a code start sets. */
  datatype Buffer = Buffer(role: string, content: string, language: Option<string>)

  /** What the widget appends to the chat view. */
  datatype Display =
    | ShowMessage(sender: string, text: string)
    | ShowCode(code: string, language: string)
    | ShowConsole(output: string)

  /** The widget: `current_message`, unset until the first start flag, and
      everything shown so far. */
  datatype Widget = Widget(current: Option<Buffer>, shown: seq<Display>)

  const Idle := Buffer("", "", None)

  function ContentOf(r: Response): string {
    if r.content.Some? then r.content.value else ""
  }

  predicate IsMessageOrCode(r: Response) {
    r.kind == "message" || r.kind == "code"
  }

  /** The buffer a message or code response works on: a fresh one on a start
      flag, the current one otherwise. */
  function Target(w: Widget, r: Response): Option<Buffer> {
    if !r.start then w.current
    else if r.kind == "code" then Some(Buffer("AI", "", Some(if r.language.Some? then r.language.value else "python")))
    else Some(Buffer("AI", "", None))
  }

  /** `handle_interpreter_output(response)`. Reading `current_message` before
      any start flag raises `AttributeError`; ending a code group whose
      buffer has no language raises `KeyError('language')`. */
  function Handle(w: Widget, r: Response): (o: Result<Widget>)
    ensures !IsMessageOrCode(r) && !(r.kind == "console" && r.format == Some("output")) ==> o == Ok(w)
    ensures r.kind == "console" && r.format == Some("output") ==> o == Ok(w.(shown := w.shown + [ShowConsole(ContentOf(r))]))
    ensures o.Err? <==> IsMessageOrCode(r) && (Target(w, r).None? || (r.kind == "code" && r.end && Target(w, r).value.language.None?))
    ensures o.Ok? ==> |w.shown| <= |o.value.shown| <= |w.shown| + 1 && o.value.shown[..|w.shown|] == w.shown
    ensures o.Ok? && IsMessageOrCode(r) ==> (r.end <==> |o.value.shown| == |w.shown| + 1)
  {
    if IsMessageOrCode(r) then
      var target := Target(w, r);
      if target.None? then Err(AttributeError("current_message"))
      else
        var b := target.value.(content := target.value.content + ContentOf(r));
        if !r.end then Ok(w.(current := Some(b)))
        else if r.kind == "message" then Ok(Widget(Some(Idle), w.shown + [ShowMessage(b.role, b.content)]))
        else if b.language.None? then Err(KeyError("language"))
        else Ok(Widget(Some(Idle), w.shown + [ShowCode(b.content, b.language.value)]))
    else if r.kind == "console" && r.format == Some("output") then
      Ok(w.(shown := w.shown + [ShowConsole(ContentOf(r))]))
    else Ok(w)
  }

  /** A code start flag opens a fresh buffer whose display language is the
      response's `language` key, `python` when the key is missing. If the same
      response also ends the group, the code is shown in that language at
      once. */
  lemma CodeStartTakesLanguage(w: Widget, f: Option<string>, c: Option<string>, l: Option<string>)
    ensures var lang := if l.Some? then l.value else "python";
      Handle(w, Response("code", f, c, true, false, l))
        == Ok(w.(current := Some(Buffer("AI", ContentOf(Response("code", f, c, true, false, l)), Some(lang)))))
    ensures var lang := if l.Some? then l.value else "python";
      Handle(w, Response("code", f, c, true, true, l))
        == Ok(Widget(Some(Idle), w.shown + [ShowCode(ContentOf(Response("code", f, c, true, true, l)), lang)]))
  {
    var r := Response("code", f, c, true, false, l);
    assert "" + ContentOf(r) == ContentOf(r);
    var r2 := Response("code", f, c, true, true, l);
    assert "" + ContentOf(r2) == ContentOf(r2);
  }

  /** The widget receiving an aggregator event stream, in order; an exception
      ends it. */
  function Replay(w: Widget, es: seq<Event>): Result<Widget>
    decreases |es|
  {
    if |es| == 0 then Ok(w)
    else match Handle(w, FromEvent(es[0]))
      case Err(f) => Err(f)
      case Ok(w1) => Replay(w1, es[1..])
  }

  lemma {:induction false} ReplayAppend(w: Widget, a: seq<Event>, b: seq<Event>)
    ensures Replay(w, a + b) == (match Replay(w, a) case Err(f) => Err(f) case Ok(w1) => Replay(w1, b))
    decreases |a|
  {
    if |a| == 0 {
      assert a + b == b;
    } else {
      assert (a + b)[0] == a[0];
      assert (a + b)[1..] == a[1..] + b;
      match Handle(w, FromEvent(a[0]))
      case Err(f) =>
      case Ok(w1) => ReplayAppend(w1, a[1..], b);
    }
  }

  /** Every code block shown so far was shown as Python. */
  predicate AllPython(ds: seq<Display>) {
    forall i :: 0 <= i < |ds| ==> ds[i].ShowCode? ==> ds[i].language == "python"
  }

  /** What the widget's state owes to the group a framed reader has open: a
      buffer for an open message or code group, a Python one for code, and
      only Python code shown. */
  predicate Ready(open: Option<FlagBase>, w: Widget) {
    && AllPython(w.shown)
    && (open.Some? && (open.value.kind == "message" || open.value.kind == "code") ==> w.current.Some?)
    && (open.Some? && open.value.kind == "code" ==> w.current.value.language == Some("python"))
  }

  lemma AllPythonSnoc(ds: seq<Display>, d: Display)
    requires AllPython(ds)
    requires d.ShowCode? ==> d.language == "python"
    ensures AllPython(ds + [d])
  {
    assert forall i :: 0 <= i < |ds| ==> (ds + [d])[i] == ds[i];
  }

  /** One event a framed reader accepts keeps the widget ready and does not
      raise. */
  lemma {:induction false} HandleKeepsReady(open: Option<FlagBase>, w: Widget, e: Event)
    requires Ready(open, w)
    requires FrameStep(Framed(open), e) != Broken
    ensures Handle(w, FromEvent(e)).Ok?
    ensures Ready(FrameStep(Framed(open), e).open, Handle(w, FromEvent(e)).value)
  {
    var r := FromEvent(e);
    var o := Handle(w, r);
    if IsMessageOrCode(r) {
      var target := Target(w, r);
      assert target.Some?;
      if r.end {
        var b := target.value.(content := target.value.content + ContentOf(r));
        if r.kind == "message" {
          AllPythonSnoc(w.shown, ShowMessage(b.role, b.content));
        } else {
          AllPythonSnoc(w.shown, ShowCode(b.content, b.language.value));
        }
      }
    } else if r.kind == "console" && r.format == Some("output") {
      AllPythonSnoc(w.shown, ShowConsole(ContentOf(r)));
    }
  }

  /** The widget consuming any stream that a framed reader accepts from
      outside a group never raises, and shows every code block as Python,
      whatever language the code was in: the aggregator's start flags carry
      no `language` key. */
  lemma {:induction false} FramedStreamNeverRaises(open: Option<FlagBase>, w: Widget, es: seq<Event>)
    requires Ready(open, w)
    requires Scan(Framed(open), es) != Broken
    ensures Replay(w, es).Ok?
    ensures AllPython(Replay(w, es).value.shown)
    decreases |es|
  {
    if |es| > 0 {
      var f := FrameStep(Framed(open), es[0]);
      if f == Broken {
        ScanBrokenStays(es[1..]);
        assert false;
      }
      HandleKeepsReady(open, w, es[0]);
      FramedStreamNeverRaises(f.open, Handle(w, FromEvent(es[0])).value, es[1..]);
    }
  }

  /** The widget shows any turn of the aggregator without raising, from the
      moment it is created. */
  lemma WidgetShowsEveryTurn(ms: seq<Message>, cs: seq<Chunk>, stop: Option<nat>, p: Policy)
    ensures Replay(Widget(None, []), RespondAndStore(ms, cs, stop, p).events).Ok?
  {
    AggregatorProperties.RespondAndStoreFraming(ms, cs, stop, p);
    FramedStreamNeverRaises(None, Widget(None, []), RespondAndStore(ms, cs, stop, p).events);
  }

  /** The events of one group: its start flag, its chunks, its end flag. */
  function Yielded(cs: seq<Chunk>): (es: seq<Event>)
    ensures |es| == |cs| && forall i :: 0 <= i < |cs| ==> es[i] == Yield(cs[i])
  {
    if |cs| == 0 then [] else [Yield(cs[0])] + Yielded(cs[1..])
  }

  /** Inside a message or code group the chunks only add their contents to
      the buffer, in order. */
  lemma {:induction false} ChunksFillBuffer(w: Widget, b: Buffer, kind: string, cs: seq<Chunk>)
    requires kind == "message" || kind == "code"
    requires w.current == Some(b)
    requires forall i :: 0 <= i < |cs| ==> cs[i].kind == kind
    ensures Replay(w, Yielded(cs)) == Ok(w.(current := Some(b.(content := b.content + Contents(cs)))))
    decreases |cs|
  {
    if |cs| == 0 {
      assert b.(content := b.content + "") == b;
    } else {
      var es := Yielded(cs);
      assert es[0] == Yield(cs[0]) && es[1..] == Yielded(cs[1..]);
      var b1 := b.(content := b.content + cs[0].content);
      assert Handle(w, FromEvent(es[0])) == Ok(w.(current := Some(b1)));
      ChunksFillBuffer(w.(current := Some(b1)), b1, kind, cs[1..]);
      assert b.content + cs[0].content + Contents(cs[1..]) == b.content + Contents(cs);
    }
  }

  /** A whole message or code group is shown as one entry holding the
      concatenated contents of its chunks; code is shown as Python. */
  lemma {:induction false} GroupShownWhole(w: Widget, base: FlagBase, cs: seq<Chunk>)
    requires base.kind == "message" || base.kind == "code"
    requires forall i :: 0 <= i < |cs| ==> cs[i].kind == base.kind
    ensures var shown := if base.kind == "message" then ShowMessage("AI", Contents(cs)) else ShowCode(Contents(cs), "python");
      Replay(w, [Start(base)] + Yielded(cs) + [End(base)]) == Ok(Widget(Some(Idle), w.shown + [shown]))
  {
    var start := Handle(w, FromEvent(Start(base))).value;
    var lang := if base.kind == "code" then Some("python") else None;
    var b := Buffer("AI", "", lang);
    assert ContentOf(FromEvent(Start(base))) == "" && "" + "" == "";
    assert Target(w, FromEvent(Start(base))) == Some(b);
    assert start == w.(current := Some(b));
    assert Replay(w, [Start(base)]) == Ok(start) by {
      assert [Start(base)][1..] == [];
    }
    ReplayAppend(w, [Start(base)], Yielded(cs));
    ChunksFillBuffer(start, b, base.kind, cs);
    var filled := start.(current := Some(b.(content := "" + Contents(cs))));
    ReplayAppend(w, [Start(base)] + Yielded(cs), [End(base)]);
    assert Replay(filled, [End(base)]) == Handle(filled, FromEvent(End(base))) by {
      assert [End(base)][1..] == [];
    }
    assert "" + Contents(cs) + "" == Contents(cs);
  }

  /** Console output is shown immediately, one entry per chunk; start and
      end flags of a console group show nothing. */
  lemma ConsoleOutputShownAtOnce(w: Widget, c: Chunk)
    requires c.kind == "console" && c.format == Some("output")
    ensures Handle(w, FromEvent(Yield(c))) == Ok(w.(shown := w.shown + [ShowConsole(c.content)]))
    ensures Handle(w, FromEvent(Start(FlagBase("computer", "console", None)))) == Ok(w)
  {
  }

  /** Before any start flag, a message chunk raises `AttributeError`. */
  lemma UnframedMessageRaises(c: Chunk)
    requires c.kind == "message"
    ensures Handle(Widget(None, []), FromEvent(Yield(c))) == Err(AttributeError("current_message"))
  {
  }
}

=== FILE: conversation.dfy ===
/**
  The conversation store of `OpenInterpreter`: how a user entry is added to
  the messages, the cursor (`last_messages_count`) that marks where the
  turn's new messages start, the blocking `chat` that runs one aggregated
  turn and names the saved conversation, `wait`, `reset`, and the two
  settings-derived properties.
 */
module Conversation {
  import opened Lmc
  import opened Aggregator
  import opened Title
  import AggregatorProperties

  /** What `chat` is given: nothing, a string, an LMC dict, a list that
      replaces the whole conversation, or any other Python value, which only
      has a truthiness. */
  datatype Entry =
    | NoEntry
    | Text(text: string)
    | Dict(message: Message)
    | History(history: seq<Message>)
    | Other(truthy: bool)

  /** The state of the store. `cursor` is `last_messages_count`; `history`
      is the `conversation_history` setting and `filename` the
      `conversation_filename`, `None` while unnamed. */
  datatype Session = Session(
    messages: seq<Message>,
    cursor: nat,
    responding: bool,
    history: bool,
    filename: Option<string>)

  /** The prompt that replaces an empty entry. */
  const NoEntryPrompt := "No entry from user - please suggest something to enter."

  /** Python falsiness of an entry: `None`, `""`, `[]` and falsy other values. */
  predicate Falsy(e: Entry) {
    || e.NoEntry?
    || (e.Text? && e.text == "")
    || (e.History? && e.history == [])
    || (e.Other? && !e.truthy)
  }

  /** The message a string entry becomes. */
  function UserText(s: string): Message {
    Chunk(Some("user"), "message", None, s, None)
  }

  /** A dict entry without a role gets the role `user`. */
  function WithUserRole(m: Message): (r: Message)
    ensures r.role.Some?
    ensures m.role.None? ==> r.role == Some("user")
    ensures m.role.Some? ==> r == m
    ensures SameHeader(r, m) || m.role.None?
    ensures r.(role := m.role) == m
  {
    if m.role.None? then m.(role := Some("user")) else m
  }

  /** `_handle_message`: the updated store and the entry it hands on. */
  function HandleMessage(s: Session, e: Entry): (r: (Session, Entry))
    ensures r.0.cursor == |r.0.messages|
    ensures r.0.responding == s.responding && r.0.history == s.history && r.0.filename == s.filename
    ensures Falsy(e) ==> r.1 == Text(NoEntryPrompt) && r.0.messages == s.messages + [UserText(NoEntryPrompt)]
    ensures e.Text? && !Falsy(e) ==> r.0.messages == s.messages + [UserText(e.text)]
    ensures e.Dict? ==> r.0.messages == s.messages + [WithUserRole(e.message)]
    ensures e.History? && !Falsy(e) ==> r.0.messages == e.history
    ensures e.Other? && !Falsy(e) ==> r.0.messages == s.messages
  {
    var entry := if Falsy(e) then Text(NoEntryPrompt) else e;
    var messages :=
      match entry
      case Dict(m) => s.messages + [WithUserRole(m)]
      case Text(t) => s.messages + [UserText(t)]
      case History(ms) => ms
      case _ => s.messages;
    var handed := if entry.Dict? then Dict(WithUserRole(entry.message)) else entry;
    (s.(messages := messages, cursor := |messages|), handed)
  }

  /** `messages[last_messages_count:]`, with Python's slice semantics: a
      cursor past the end gives the empty list. */
  function NewMessages(s: Session): (r: seq<Message>)
    ensures s.cursor <= |s.messages| ==> s.messages == s.messages[..s.cursor] + r
    ensures s.cursor >= |s.messages| <==> r == []
  {
    if s.cursor <= |s.messages| then s.messages[s.cursor..] else []
  }

  /** The cursor points into the store. */
  predicate CursorValid(s: Session) {
    s.cursor <= |s.messages|
  }

  /** Right after an entry is handled there is nothing new to return. */
  lemma HandledHasNothingNew(s: Session, e: Entry)
    ensures CursorValid(HandleMessage(s, e).0)
    ensures NewMessages(HandleMessage(s, e).0) == []
  {
  }

  /** Every entry except a truthy value of an unknown type leaves the store
      non-empty, so naming the conversation after it cannot raise. */
  lemma HandledStoreNonEmpty(s: Session, e: Entry)
    requires !(e.Other? && e.truthy)
    ensures |HandleMessage(s, e).0.messages| > 0
  {
  }

  /** The outcome of the blocking `chat`: the new messages it returns, or
      the exception that escaped it. */
  datatype ChatOutcome =
    | Returned(session: Session, newMessages: seq<Message>)
    | Raised(session: Session, fault: Fault)

  /** `_save_conversation`'s naming step: with history on and no name yet,
      the conversation is named after its first words and the date. Writing
      the file is not part of this model. */
  function NameConversation(s: Session, date: string): (r: Result<Session>)
    ensures r.Ok? ==> r.value.(filename := s.filename) == s
    ensures r.Err? ==> r.fault == IndexError
    ensures !(s.history && (s.filename.None? || s.filename == Some(""))) ==> r == Ok(s)
    ensures s.history && (s.filename.None? || s.filename == Some("")) && |s.messages| > 0 ==>
      r == Ok(s.(filename := Some(ConversationFilename(FirstFewWords(s.messages[0].content), date))))
    ensures r.Err? <==> s.history && (s.filename.None? || s.filename == Some("")) && |s.messages| == 0
    ensures r.Ok? && r.value.filename != s.filename ==>
      && s.history && |s.messages| > 0
      && r.value.filename == Some(ConversationFilename(FirstFewWords(s.messages[0].content), date))
  {
    if s.history && (s.filename.None? || s.filename == Some("")) then
      match ConversationTitle(s.messages)
      case Err(f) => Err(f)
      case Ok(title) => Ok(s.(filename := Some(ConversationFilename(title, date))))
    else Ok(s)
  }

  /** The attribute `_save_conversation` reads for the history directory;
      no code ever assigns it. */
  const HistoryPath := "conversation_history_path"

  /** The blocking `chat(message)`: mark the store as responding, handle the
      entry, pull the whole aggregated turn (the chunk stream, stop event and
      policy are parameters), save, clear `responding` and return the new
      messages. With history on, saving reads the directory attribute that
      is never assigned and raises `AttributeError`. An exception escapes
      with `responding` still set. */
  function Chat(s: Session, e: Entry, stream: seq<Chunk>, stop: Option<nat>, p: Policy, date: string): (r: ChatOutcome)
    ensures r.session.responding <==> r.Raised?
    ensures r.session.history == s.history
    ensures s.history ==> r.Raised?
    ensures r.Returned? ==> r.newMessages == NewMessages(r.session)
  {
    var handled := HandleMessage(s.(responding := true), e).0;
    var turn := RespondAndStore(handled.messages, stream, stop, p);
    var stored := handled.(messages := turn.messages);
    if turn.fault.Some? then Raised(stored, turn.fault.value)
    else
      match NameConversation(stored, date)
      case Err(f) => Raised(stored, f)
      case Ok(named) =>
        if named.history then Raised(named, AttributeError(HistoryPath))
        else
          var done := named.(responding := false);
          Returned(done, NewMessages(done))
  }

  /** What `chat` returns is exactly what the turn appended after the
      handled entry: the messages before the cursor are the handled store
      (only the content of its last message may have grown), at most one
      message per pulled chunk is returned, and `responding` is cleared. On
      an exception `responding` stays set. */
  lemma {:induction false} ChatReturnsTheTurn(s: Session, e: Entry, stream: seq<Chunk>, stop: Option<nat>, p: Policy, date: string)
    ensures var handled := HandleMessage(s, e).0;
      match Chat(s, e, stream, stop, p, date)
      case Returned(done, newMessages) =>
        && !s.history
        && !done.responding
        && done.cursor == |handled.messages|
        && CursorValid(done)
        && done.messages == done.messages[..done.cursor] + newMessages
        && Extends(handled.messages, done.messages)
        && |newMessages| <= |Pulled(stream, stop)|
      case Raised(after, _) =>
        && after.responding
        && Extends(handled.messages, after.messages)
  {
    var handled := HandleMessage(s.(responding := true), e).0;
    assert handled.messages == HandleMessage(s, e).0.messages;
    var t0 := Turn(None, handled.messages, [], None);
    AggregatorProperties.FeedExtends(t0, Pulled(stream, stop), p);
  }

  /** `chat` returns exactly when history is off and the turn raised
      nothing; with history on it always raises. When history is on and the
      turn and the naming succeeded, the exception is the `AttributeError`
      for the history directory, raised after the conversation was named. */
  lemma ChatReturnsOnlyWithoutHistory(s: Session, e: Entry, stream: seq<Chunk>, stop: Option<nat>, p: Policy, date: string)
    ensures var handled := HandleMessage(s, e).0;
      Chat(s, e, stream, stop, p, date).Returned? <==>
        !s.history && RespondAndStore(handled.messages, stream, stop, p).fault.None?
    ensures var handled := HandleMessage(s, e).0;
      var turn := RespondAndStore(handled.messages, stream, stop, p);
      var r := Chat(s, e, stream, stop, p, date);
      s.history && turn.fault.None? && |turn.messages| > 0 ==>
        && r == Raised(r.session, AttributeError(HistoryPath))
        && r.session.responding
        && r.session.messages == turn.messages
        && (s.filename.Some? && s.filename != Some("") ==> r.session.filename == s.filename)
        && (s.filename.None? || s.filename == Some("") ==>
              r.session.filename == Some(ConversationFilename(FirstFewWords(turn.messages[0].content), date)))
  {
    var handled := HandleMessage(s.(responding := true), e).0;
    assert handled.messages == HandleMessage(s, e).0.messages;
  }

  /** A string entry is stored as a user message right before the cursor,
      so `chat` never returns the user's own message. */
  lemma ChatReturnsNoUserText(s: Session, text: string, stream: seq<Chunk>, stop: Option<nat>, p: Policy, date: string)
    requires text != ""
    ensures var r := Chat(s, Text(text), stream, stop, p, date);
      r.Returned? ==>
        && r.session.cursor == |s.messages| + 1 <= |r.session.messages|
        && SameHeader(r.session.messages[r.session.cursor - 1], UserText(text))
  {
    ChatReturnsTheTurn(s, Text(text), stream, stop, p, date);
    var handled := HandleMessage(s, Text(text)).0;
    assert handled.messages[|s.messages|] == UserText(text);
  }

  /** `wait()`: `None` while a turn is still responding, otherwise the new
      messages `chat` would return. */
  function Wait(s: Session): (r: Option<seq<Message>>)
    ensures r.None? <==> s.responding
    ensures r.Some? && CursorValid(s) ==> s.messages == s.messages[..s.cursor] + r.value
  {
    if s.responding then None else Some(NewMessages(s))
  }

  /** After `chat` returns, `wait` returns the same messages at once. */
  lemma ChatThenWait(s: Session, e: Entry, stream: seq<Chunk>, stop: Option<nat>, p: Policy, date: string)
    ensures var r := Chat(s, e, stream, stop, p, date);
      r.Returned? ==> Wait(r.session) == Some(r.newMessages)
  {
  }

  /** `reset()`: empty the conversation and the cursor. Terminating the
      language runners is not part of this model. */
  function Reset(s: Session): (r: Session)
    ensures r.messages == [] && r.cursor == 0 && CursorValid(r)
    ensures r.responding == s.responding && r.history == s.history && r.filename == s.filename
  {
    s.(messages := [], cursor := 0)
  }

  /** A conversation started after a reset holds exactly the new entry. */
  lemma ResetThenText(s: Session, text: string)
    requires text != ""
    ensures var r := HandleMessage(Reset(s), Text(text)).0;
      r.messages == [UserText(text)] && r.cursor == 1 && NewMessages(r) == []
  {
  }

  /** The settings the two derived properties read. */
  datatype Settings = Settings(
    disableTelemetry: bool,
    offline: bool,
    conversationHistory: bool,
    contributeConversation: bool)

  /** `anonymous_telemetry`. */
  predicate AnonymousTelemetry(s: Settings) {
    !s.disableTelemetry && !s.offline
  }

  /** `will_contribute`: contributing is requested and no override is set. */
  predicate WillContribute(s: Settings) {
    s.contributeConversation && !(s.offline || !s.conversationHistory || s.disableTelemetry)
  }

  /** A user who will contribute conversations also sends anonymous
      telemetry, and contribution is exactly the request plus history on plus
      telemetry allowed. */
  lemma WillContributeNeedsTelemetry(s: Settings)
    ensures WillContribute(s) ==> AnonymousTelemetry(s)
    ensures WillContribute(s) <==> s.contributeConversation && s.conversationHistory && AnonymousTelemetry(s)
    ensures !AnonymousTelemetry(s) ==> !WillContribute(s)
  {
  }
}

=== FILE: extensions.dfy ===
/**
  `MainWindow.detect_language`: the language shown in the status bar for a
  file, from the text after the file name's last dot, compared without case.
 */
module Extensions {

  /** `filename.split('.')[-1]`: the text after the last dot, or the whole
      name when it has none. */
  function LastSegment(s: string): (r: string)
    ensures |r| <= |s| && r == s[|s| - |r|..]
    ensures '.' !in r
    ensures |r| < |s| ==> s[|s| - |r| - 1] == '.'
    decreases |s|
  {
    if |s| == 0 then ""
    else if s[|s| - 1] == '.' then ""
    else
      var pre := s[..|s| - 1];
      var rest := LastSegment(pre);
      assert s[|s| - |rest| - 1..] == pre[|pre| - |rest|..] + [s[|s| - 1]];
      rest + [s[|s| - 1]]
  }

  /** A name without a dot is its own last segment. */
  lemma {:induction false} NoDotIsOwnSegment(s: string)
    requires '.' !in s
    ensures LastSegment(s) == s
    decreases |s|
  {
    if |s| > 0 {
      assert s[..|s| - 1] + [s[|s| - 1]] == s;
      NoDotIsOwnSegment(s[..|s| - 1]);
    }
  }

  /** Whatever precedes the last dot does not matter. */
  lemma {:induction false} SegmentAfterLastDot(name: string, ext: string)
    requires '.' !in ext
    ensures LastSegment(name + "." + ext) == ext
    decreases |ext|
  {
    var s := name + "." + ext;
    if |ext| == 0 {
      assert s[|s| - 1] == '.';
    } else {
      assert s[..|s| - 1] == name + "." + ext[..|ext| - 1];
      assert '.' !in ext[..|ext| - 1];
      SegmentAfterLastDot(name, ext[..|ext| - 1]);
      assert ext[..|ext| - 1] + [ext[|ext| - 1]] == ext;
    }
  }

  /** Python's `lower()` on ASCII letters; other characters are kept. */
  function LowerChar(ch: char): char {
    if 'A' <= ch <= 'Z' then (ch as int - 'A' as int + 'a' as int) as char else ch
  }

  function Lower(s: string): (r: string)
    ensures |r| == |s|
    ensures forall i :: 0 <= i < |s| ==> r[i] == LowerChar(s[i])
  {
    seq(|s|, i requires 0 <= i < |s| => LowerChar(s[i]))
  }

  /** No upper-case ASCII letter survives lower-casing; each becomes its
      lower-case letter, and every other character is kept. */
  lemma LowerMeaning(s: string)
    ensures forall i :: 0 <= i < |s| ==> !('A' <= Lower(s)[i] <= 'Z')
    ensures forall i :: 0 <= i < |s| && !('A' <= s[i] <= 'Z') ==> Lower(s)[i] == s[i]
    ensures forall i :: 0 <= i < |s| && 'A' <= s[i] <= 'Z' ==> 'a' <= Lower(s)[i] <= 'z' && Lower(s)[i] as int - s[i] as int == 32
  {
  }

  lemma LowerIdempotent(s: string)
    ensures Lower(Lower(s)) == Lower(s)
  {
  }

  /** Lower-casing keeps dots where they are, so it commutes with taking the
      last segment. */
  lemma {:induction false} LowerKeepsSegments(s: string)
    ensures LastSegment(Lower(s)) == Lower(LastSegment(s))
    decreases |s|
  {
    if |s| > 0 {
      var pre, last := s[..|s| - 1], s[|s| - 1];
      var l := Lower(s);
      assert l[..|l| - 1] == Lower(pre);
      assert l[|l| - 1] == LowerChar(last);
      if last != '.' {
        LowerKeepsSegments(pre);
        LowerSnoc(LastSegment(pre), last);
      }
    }
  }

  lemma LowerSnoc(s: string, ch: char)
    ensures Lower(s + [ch]) == Lower(s) + [LowerChar(ch)]
  {
  }

  /** `language_map`. */
  const LanguageMap: map<string, string> := map[
    "py" := "Python",
    "js" := "JavaScript",
    "html" := "HTML",
    "css" := "CSS",
    "json" := "JSON",
    "txt" := "Plain Text"]

  const UnknownLanguage := "Unknown"

  /** Every language of the table is a real name, never `Unknown`. */
  lemma KnownLanguages(ext: string)
    requires ext in LanguageMap
    ensures LanguageMap[ext] in LanguageMap.Values
    ensures LanguageMap[ext] != UnknownLanguage
  {
  }

  /** `detect_language(filename)`. */
  function DetectLanguage(filename: string): (r: string)
    ensures r == UnknownLanguage || r in LanguageMap.Values
    ensures r == UnknownLanguage <==> Lower(LastSegment(filename)) !in LanguageMap
    ensures Lower(LastSegment(filename)) in LanguageMap ==> r == LanguageMap[Lower(LastSegment(filename))]
  {
    var ext := Lower(LastSegment(filename));
    if ext in LanguageMap then KnownLanguages(ext); LanguageMap[ext] else UnknownLanguage
  }

  /** The language of `name.ext` is the language of `ext` alone, whatever the
      name, dots included. */
  lemma LanguageOfExtension(name: string, ext: string)
    requires '.' !in ext
    ensures DetectLanguage(name + "." + ext) == DetectLanguage(ext)
  {
    SegmentAfterLastDot(name, ext);
    NoDotIsOwnSegment(ext);
  }

  /** Detection ignores case. */
  lemma DetectionIgnoresCase(filename: string)
    ensures DetectLanguage(Lower(filename)) == DetectLanguage(filename)
  {
    LowerKeepsSegments(filename);
    LowerIdempotent(LastSegment(filename));
  }

  lemma LowerPy()
    ensures Lower("py") == "py"
  {
    var m := Lower("py");
    assert m[0] == 'p' && m[1] == 'y';
  }

  lemma LowerUpperPy()
    ensures Lower("PY") == "py"
  {
    var l := Lower("PY");
    assert l[0] == 'p' && l[1] == 'y';
  }

  lemma PyKey()
    ensures "py" in LanguageMap && LanguageMap["py"] == "Python"
  {
  }

  lemma PyIsPython()
    ensures DetectLanguage("py") == "Python"
  {
    PyKey();
    NoDotIsOwnSegment("py");
    LowerPy();
    DetectByKey("py", "py");
  }

  /** Upper-case `PY` is Python too. */
  lemma UpperPyIsPython()
    ensures DetectLanguage("PY") == "Python"
  {
    DetectionIgnoresCase("PY");
    LowerUpperPy();
    PyIsPython();
  }

  /** A file whose lower-cased extension is a key of the map gets that key's
      language. */
  lemma DetectByKey(filename: string, key: string)
    requires Lower(LastSegment(filename)) == key && key in LanguageMap
    ensures DetectLanguage(filename) == LanguageMap[key]
  {
  }

  /** `.py` after any name, in either case, is Python. */
  lemma PythonFiles(name: string)
    ensures DetectLanguage(name + "." + "py") == "Python"
    ensures DetectLanguage(name + "." + "PY") == "Python"
  {
    LanguageOfExtension(name, "py");
    LanguageOfExtension(name, "PY");
    PyIsPython();
    UpperPyIsPython();
  }

  /** A name ending in a dot has an empty extension, which is unknown. */
  lemma TrailingDotIsUnknown(name: string)
    ensures DetectLanguage(name + ".") == UnknownLanguage
  {
    assert LastSegment(name + ".") == "";
    assert Lower("") == "";
    assert "" !in LanguageMap;
  }
}

=== FILE: framing.dfy ===
/**
  Well-formedness of a yielded event stream: start and end flags bracket
  groups, every chunk other than a confirmation is yielded inside a group it
  matches, and confirmations are yielded between groups.
 */
module Framing {
  import opened Lmc
  import opened Aggregator

  /** The state of a reader of the stream: broken, or the open flag base. */
  datatype Frame = Broken | Framed(open: Option<FlagBase>)

  function FrameStep(f: Frame, e: Event): Frame {
    match f
    case Broken => Broken
    case Framed(open) =>
      match e
      case Start(b) => if open.None? then Framed(Some(b)) else Broken
      case End(b) => if open == Some(b) then Framed(None) else Broken
      case Yield(c) =>
        if c.kind == "confirmation" then (if open.None? then f else Broken)
        else if open.Some? && Matches(open.value, c) then f
        else Broken
  }

  function Scan(f: Frame, es: seq<Event>): Frame
    decreases |es|
  {
    if |es| == 0 then f else Scan(FrameStep(f, es[0]), es[1..])
  }

  lemma {:induction false} ScanAppend(f: Frame, a: seq<Event>, b: seq<Event>)
    ensures Scan(f, a + b) == Scan(Scan(f, a), b)
    decreases |a|
  {
    if |a| == 0 {
      assert a + b == b;
    } else {
      assert (a + b)[1..] == a[1..] + b;
      ScanAppend(FrameStep(f, a[0]), a[1..], b);
    }
  }

  lemma {:induction false} ScanOne(f: Frame, e: Event)
    ensures Scan(f, [e]) == FrameStep(f, e)
  {
    assert [e][1..] == [];
  }

  lemma {:induction false} ScanBrokenStays(es: seq<Event>)
    ensures Scan(Broken, es) == Broken
    decreases |es|
  {
    if |es| > 0 {
      ScanBrokenStays(es[1..]);
    }
  }

  /** The start and end flags of an event sequence, in order. */
  function Flags(es: seq<Event>): (fs: seq<Event>)
    ensures forall i :: 0 <= i < |fs| ==> !fs[i].Yield?
  {
    if |es| == 0 then []
    else if es[0].Yield? then Flags(es[1..])
    else [es[0]] + Flags(es[1..])
  }

  lemma {:induction false} FlagsAppend(a: seq<Event>, b: seq<Event>)
    ensures Flags(a + b) == Flags(a) + Flags(b)
  {
    if |a| == 0 {
      assert a + b == b;
    } else {
      assert (a + b)[1..] == a[1..] + b;
      FlagsAppend(a[1..], b);
    }
  }

  lemma {:induction false} FlagsOne(e: Event)
    ensures Flags([e]) == if e.Yield? then [] else [e]
  {
    assert [e][1..] == [];
  }

  /** The chunks yielded in an event sequence, in order. */
  function Yields(es: seq<Event>): seq<Chunk> {
    if |es| == 0 then []
    else if es[0].Yield? then [es[0].chunk] + Yields(es[1..])
    else Yields(es[1..])
  }

  lemma {:induction false} YieldsAppend(a: seq<Event>, b: seq<Event>)
    ensures Yields(a + b) == Yields(a) + Yields(b)
  {
    if |a| == 0 {
      assert a + b == b;
    } else {
      assert (a + b)[1..] == a[1..] + b;
      YieldsAppend(a[1..], b);
    }
  }

  lemma {:induction false} YieldsOne(e: Event)
    ensures Yields([e]) == if e.Yield? then [e.chunk] else []
  {
    assert [e][1..] == [];
  }

  /** Start and end flags strictly alternate, beginning with a start, and
      each end flag repeats the base of the start flag before it. */
  predicate Alternating(fs: seq<Event>) {
    && (forall i :: 0 <= i < |fs| ==> (fs[i].Start? <==> i % 2 == 0))
    && (forall i :: 0 <= i < |fs| && i % 2 == 0 && i + 1 < |fs| ==> fs[i + 1] == End(fs[i].base))
  }

  lemma {:induction false} AlternatingSnoc(fs: seq<Event>, x: Event)
    requires Alternating(fs)
    requires x.Start? <==> |fs| % 2 == 0
    requires |fs| % 2 == 1 ==> x == End(fs[|fs| - 1].base)
    ensures Alternating(fs + [x])
  {
    var gs := fs + [x];
    forall i | 0 <= i < |gs|
      ensures gs[i].Start? <==> i % 2 == 0
    {
      if i < |fs| {
        assert gs[i] == fs[i];
      }
    }
    forall i | 0 <= i < |gs| && i % 2 == 0 && i + 1 < |gs|
      ensures gs[i + 1] == End(gs[i].base)
    {
      assert gs[i] == fs[i];
      if i + 1 < |fs| {
        assert gs[i + 1] == fs[i + 1];
      }
    }
  }

  /** A stream that a reader starting outside any group accepts has
      alternating flags; its last flag is the start of the group still open,
      or an end flag when no group is open. */
  lemma {:induction false} FramedFlagsAlternate(es: seq<Event>, open: Option<FlagBase>)
    requires Scan(Framed(None), es) == Framed(open)
    ensures Alternating(Flags(es))
    ensures open.Some? <==> |Flags(es)| % 2 == 1
    ensures open.Some? ==> Flags(es)[|Flags(es)| - 1] == Start(open.value)
    decreases |es|
  {
    if |es| == 0 {
      return;
    }
    var p, e := es[..|es| - 1], es[|es| - 1];
    assert es == p + [e];
    ScanAppend(Framed(None), p, [e]);
    FlagsAppend(p, [e]);
    var f := Scan(Framed(None), p);
    if f == Broken {
      ScanBrokenStays([e]);
      assert false;
    }
    FramedFlagsAlternate(p, f.open);
    var fp := Flags(p);
    match e
    case Yield(c) =>
      assert Flags(es) == fp;
    case Start(b) =>
      assert f.open.None?;
      assert Flags(es) == fp + [Start(b)];
      AlternatingSnoc(fp, Start(b));
    case End(b) =>
      assert f.open == Some(b);
      assert Flags(es) == fp + [End(b)];
      AlternatingSnoc(fp, End(b));
  }

  /** A stream that ends outside any group ends with an end flag, if it has
      any flags at all. */
  lemma {:induction false} ClosedStreamEndsWithEnd(es: seq<Event>)
    requires Scan(Framed(None), es) == Framed(None)
    ensures |Flags(es)| % 2 == 0
    ensures |Flags(es)| > 0 ==> Flags(es)[|Flags(es)| - 1].End?
  {
    FramedFlagsAlternate(es, None);
    var fs := Flags(es);
    if |fs| > 0 {
      assert (|fs| - 1) % 2 == 1;
      assert !fs[|fs| - 1].Start?;
    }
  }
}

=== FILE: html_runner.dfy ===
/**
  The HTML language runner: it does not execute anything, it echoes the code
  back for display and announces that it is ready.
 */
module HtmlRunner {
  import opened Lmc
  import opened Aggregator

  const FileExtension := "html"

  /** The fixed console notice that follows the echoed code. */
  const ReadyNotice := "HTML code is ready to be displayed."

  /** `HTML.run(code)`: the two chunks it yields, in order. Neither carries a
      role; both are addressed to the user and the assistant. */
  function Run(code: string): (r: seq<Chunk>)
    ensures |r| == 2
    ensures r[0].kind == "code" && r[0].format == Some(FileExtension) && r[0].content == code
    ensures r[1].kind == "console" && r[1].format == Some("output") && r[1].content == ReadyNotice
    ensures forall i :: 0 <= i < |r| ==> r[i].role.None? && r[i].recipient == Some("both")
  {
    [ Chunk(None, "code", Some("html"), code, Some("both")),
      Chunk(None, "console", Some("output"), ReadyNotice, Some("both")) ]
  }

  /** The output determines the code: the echo loses nothing, and the notice
      is the same whatever the code. */
  lemma RunEchoesCode(a: string, b: string)
    ensures Run(a) == Run(b) <==> a == b
    ensures Run(a)[1] == Run(b)[1]
  {
    assert Run(a)[0].content == a;
  }

  /** Fed to the aggregator as they are, the runner's chunks raise
      `KeyError('role')`: opening a group reads the role, which they lack. A
      role has to be added between the runner and the aggregator. */
  lemma {:induction false} RunnerChunksNeedARole(ms: seq<Message>, code: string, p: Policy)
    ensures RespondAndStore(ms, Run(code), None, p).fault == Some(KeyError("role"))
    ensures RespondAndStore(ms, Run(code), None, p).messages == ms
  {
    var cs := Run(code);
    var t0 := Turn(None, ms, [], None);
    var t1 := Step(t0, cs[0], p);
    assert Feed(t0, cs, p) == Feed(t1, cs[1..], p);
    if code == "" {
      assert t1 == t0;
      var t2 := Step(t1, cs[1], p);
      assert t2.fault == Some(KeyError("role")) && t2.messages == ms;
      assert Feed(t1, cs[1..], p) == Feed(t2, cs[2..], p);
    } else {
      assert t1.fault == Some(KeyError("role")) && t1.messages == ms;
    }
  }

  /** The runner's chunks with the computer's role added. */
  function WithComputerRole(code: string): (cs: seq<Chunk>)
    ensures |cs| == 2 && forall i :: 0 <= i < 2 ==> cs[i] == Run(code)[i].(role := Some("computer"))
  {
    [Run(code)[0].(role := Some("computer")), Run(code)[1].(role := Some("computer"))]
  }

  const CodeBase := FlagBase("computer", "code", Some("html"))
  const ConsoleBase := FlagBase("computer", "console", None)

  lemma EchoOpensCodeGroup(ms: seq<Message>, code: string, p: Policy)
    requires code != ""
    ensures var c := WithComputerRole(code)[0];
      Step(Turn(None, ms, [], None), c, p) == Turn(Some(CodeBase), ms + [c], [Start(CodeBase), Yield(c)], None)
  {
  }

  lemma NoticeOpensConsoleGroup(ms: seq<Message>, code: string, p: Policy)
    ensures var cs := WithComputerRole(code);
      Step(Turn(Some(CodeBase), ms + [cs[0]], [Start(CodeBase), Yield(cs[0])], None), cs[1], p)
        == Turn(Some(ConsoleBase), ms + [cs[0], cs[1].(content := p.truncate(ReadyNotice))],
             [Start(CodeBase), Yield(cs[0]), End(CodeBase), Start(ConsoleBase), Yield(cs[1])], None)
  {
    var cs := WithComputerRole(code);
    assert !Matches(CodeBase, cs[1]);
    assert (ms + [cs[0]]) + [cs[1]] == ms + [cs[0], cs[1]];
  }

  /** With the computer's role added, the runner's output is stored as two
      messages, the code and the truncated notice, each in its own group. */
  lemma {:induction false} RunnerChunksWithRole(ms: seq<Message>, code: string, p: Policy)
    requires code != ""
    ensures var cs := WithComputerRole(code);
      var r := RespondAndStore(ms, cs, None, p);
      && r.fault.None?
      && r.messages == ms + [cs[0], cs[1].(content := p.truncate(ReadyNotice))]
      && r.events == [Start(CodeBase), Yield(cs[0]), End(CodeBase), Start(ConsoleBase), Yield(cs[1]), End(ConsoleBase)]
  {
    var cs := WithComputerRole(code);
    var t0 := Turn(None, ms, [], None);
    EchoOpensCodeGroup(ms, code, p);
    NoticeOpensConsoleGroup(ms, code, p);
    var t1 := Step(t0, cs[0], p);
    var t2 := Step(t1, cs[1], p);
    assert Pulled(cs, None) == cs;
    assert Feed(t0, cs, p) == Feed(t1, cs[1..], p);
    assert Feed(t1, cs[1..], p) == Feed(t2, cs[2..], p);
    assert Feed(t2, cs[2..], p) == t2;
    assert RespondAndStore(ms, cs, None, p) == t2.(open := None, events := Close(t2));
  }
}

=== FILE: lmc.dfy ===
/**
  The LMC message schema shared by every component: the dict that a producer
  (the language model or a language runner) yields as a chunk, that the
  aggregator re-emits with start/end framing, and that the conversation store
  keeps as a message.
 */
module Lmc {

  datatype Option<+T> = None | Some(value: T)

  /** One LMC dict. The aggregator stores the chunk dict itself as a message,
      so chunks and stored messages share this shape. `role`, `format` and
      `recipient` are keys a dict may lack; `kind` is the `type` key. */
  datatype Chunk = Chunk(
    role: Option<string>,
    kind: string,
    format: Option<string>,
    content: string,
    recipient: Option<string>)

  type Message = Chunk

  /** The `{role, type[, format]}` dict that start and end flags are built from. */
  datatype FlagBase = FlagBase(role: string, kind: string, format: Option<string>)

  /** What the aggregator yields: a start flag, an end flag, or a chunk. */
  datatype Event = Start(base: FlagBase) | End(base: FlagBase) | Yield(chunk: Chunk)

  /** The Python exceptions the modelled code can raise. */
  datatype Fault = KeyError(key: string) | IndexError | AttributeError(name: string)

  /** A value, or the exception raised instead of computing it. */
  datatype Result<+T> = Ok(value: T) | Err(fault: Fault)

  predicate IsActiveLine(c: Chunk) {
    c.format == Some("active_line")
  }

  /** Messages that agree on everything but their content. */
  predicate SameHeader(a: Message, b: Message) {
    a.role == b.role && a.kind == b.kind && a.format == b.format && a.recipient == b.recipient
  }

  /** The message sequence `after` is `before` grown only at its end: at most
      the last message of `before` had its content changed, and messages may
      have been appended. */
  predicate Extends(before: seq<Message>, after: seq<Message>) {
    && |before| <= |after|
    && (forall i :: 0 <= i < |before| - 1 ==> after[i] == before[i])
    && (|before| > 0 ==> SameHeader(after[|before| - 1], before[|before| - 1]))
  }

  lemma {:induction false} ExtendsTransitive(a: seq<Message>, b: seq<Message>, c: seq<Message>)
    requires Extends(a, b) && Extends(b, c)
    ensures Extends(a, c)
  {
    forall i | 0 <= i < |a| - 1
      ensures c[i] == a[i]
    {
      assert i < |b| - 1;
    }
    if |a| > 0 && |a| == |b| {
      assert SameHeader(c[|b| - 1], b[|b| - 1]);
    }
  }

  lemma ConcatAssoc<T>(a: seq<T>, b: seq<T>, c: seq<T>)
    ensures (a + b) + c == a + (b + c)
  {
  }

  /** Concatenation of the contents of a chunk sequence, in order. */
  function Contents(cs: seq<Chunk>): string {
    if |cs| == 0 then "" else cs[0].content + Contents(cs[1..])
  }
}

=== FILE: title.dfy ===
/**
  The conversation title of `OpenInterpreter._get_first_few_words`, used to
  name the saved conversation file: the first words of the first message,
  joined by underscores, with characters unsafe in file names removed.
 */
module Title {
  import opened Lmc

  /** Python's `str.isspace`, the separators of `str.split()`. */
  predicate IsSpace(ch: char) {
    || ('\t' <= ch <= '\r') || ('\U{1C}' <= ch <= ' ')
    || ch == '\U{85}' || ch == '\U{A0}' || ch == '\U{1680}'
    || ('\U{2000}' <= ch <= '\U{200A}') || ch == '\U{2028}' || ch == '\U{2029}'
    || ch == '\U{202F}' || ch == '\U{205F}' || ch == '\U{3000}'
  }

  predicate NoSpace(s: string) {
    forall i :: 0 <= i < |s| ==> !IsSpace(s[i])
  }

  /** The longest prefix of `s` without whitespace. */
  function WordAt(s: string): (w: string)
    ensures |w| <= |s| && w == s[..|w|]
    ensures NoSpace(w)
    ensures |w| < |s| ==> IsSpace(s[|w|])
    decreases |s|
  {
    if |s| == 0 || IsSpace(s[0]) then "" else [s[0]] + WordAt(s[1..])
  }

  /** `s.split()`: the maximal runs of non-whitespace characters, in order. */
  function Split(s: string): (ws: seq<string>)
    ensures forall i :: 0 <= i < |ws| ==> |ws[i]| > 0 && NoSpace(ws[i])
    decreases |s|
  {
    if |s| == 0 then []
    else if IsSpace(s[0]) then Split(s[1..])
    else var w := WordAt(s); [w] + Split(s[|w|..])
  }

  /** `sep.join(ws)`: the words in order with `sep` between neighbours. */
  function Join(ws: seq<string>, sep: string): (r: string)
    ensures |ws| == 0 ==> r == ""
    ensures |ws| > 0 ==> |ws[0]| <= |r| && |ws[|ws| - 1]| <= |r|
    ensures |ws| > 1 ==> |ws[0]| + |sep| + |ws[|ws| - 1]| <= |r|
    decreases |ws|
  {
    if |ws| == 0 then ""
    else if |ws| == 1 then ws[0]
    else ws[0] + sep + Join(ws[1..], sep)
  }

  function Concat(ws: seq<string>): string {
    if |ws| == 0 then "" else ws[0] + Concat(ws[1..])
  }

  /** The characters of `s` that are not whitespace, in order. */
  function RemoveSpaces(s: string): string {
    if |s| == 0 then "" else (if IsSpace(s[0]) then "" else [s[0]]) + RemoveSpaces(s[1..])
  }

  lemma {:induction false} WordThenRest(s: string)
    requires |s| > 0 && !IsSpace(s[0])
    ensures RemoveSpaces(s) == WordAt(s) + RemoveSpaces(s[|WordAt(s)|..])
    decreases |s|
  {
    var t := s[1..];
    var w := WordAt(t);
    assert WordAt(s) == [s[0]] + w;
    assert RemoveSpaces(s) == [s[0]] + RemoveSpaces(t);
    if |t| > 0 && !IsSpace(t[0]) {
      WordThenRest(t);
      assert t[|w|..] == s[|WordAt(s)|..];
      ConcatAssoc([s[0]], w, RemoveSpaces(t[|w|..]));
    } else {
      assert w == "";
      assert s[|WordAt(s)|..] == t;
    }
  }

  /** The words of a string, put back together, are the string without its
      whitespace: splitting loses nothing but the separators. */
  lemma {:induction false} SplitKeepsEverythingButSpaces(s: string)
    ensures Concat(Split(s)) == RemoveSpaces(s)
    decreases |s|
  {
    if |s| == 0 {
    } else if IsSpace(s[0]) {
      SplitKeepsEverythingButSpaces(s[1..]);
    } else {
      var w := WordAt(s);
      SplitKeepsEverythingButSpaces(s[|w|..]);
      WordThenRest(s);
      assert Concat([w] + Split(s[|w|..])) == w + Concat(Split(s[|w|..]));
    }
  }

  /** A leading whitespace character does not change the words. */
  lemma SplitSkipsSpace(s: string)
    requires |s| > 0 && IsSpace(s[0])
    ensures Split(s) == Split(s[1..])
  {
  }

  /** Joining the words with one-character separators never makes the text
      longer: each separator replaces at least one whitespace character. */
  lemma {:induction false} JoinedWordsNoLonger(s: string)
    ensures |Join(Split(s), "_")| <= |s|
    decreases |s|
  {
    if |s| == 0 {
    } else if IsSpace(s[0]) {
      JoinedWordsNoLonger(s[1..]);
    } else {
      var w := WordAt(s);
      var rest := s[|w|..];
      var ws := Split(rest);
      assert Split(s) == [w] + ws;
      if |ws| == 0 {
        assert Join([w], "_") == w;
      } else {
        assert |rest| > 0 && IsSpace(rest[0]);
        SplitSkipsSpace(rest);
        JoinedWordsNoLonger(rest[1..]);
        assert ([w] + ws)[1..] == ws;
        assert Join([w] + ws, "_") == w + "_" + Join(ws, "_");
      }
    }
  }

  /** A whitespace-free word followed by whitespace or nothing is exactly
      the word `WordAt` reads. */
  lemma {:induction false} WordAtWord(w: string, t: string)
    requires NoSpace(w)
    requires |t| == 0 || IsSpace(t[0])
    ensures WordAt(w + t) == w
    decreases |w|
  {
    if |w| == 0 {
      assert w + t == t;
    } else {
      assert (w + t)[1..] == w[1..] + t;
      WordAtWord(w[1..], t);
      assert [w[0]] + w[1..] == w;
    }
  }

  predicate AllSpace(s: string) {
    forall i :: 0 <= i < |s| ==> IsSpace(s[i])
  }

  /** Leading whitespace never changes the words. */
  lemma {:induction false} SplitSkipsSpaces(sep: string, t: string)
    requires AllSpace(sep)
    ensures Split(sep + t) == Split(t)
    decreases |sep|
  {
    if |sep| > 0 {
      SplitSkipsSpace(sep + t);
      assert (sep + t)[1..] == sep[1..] + t;
      SplitSkipsSpaces(sep[1..], t);
    } else {
      assert sep + t == t;
    }
  }

  /** Non-empty words without whitespace, as `Split` produces them. */
  predicate Words(ws: seq<string>) {
    forall i :: 0 <= i < |ws| ==> |ws[i]| > 0 && NoSpace(ws[i])
  }

  /** Splitting undoes joining: words that are non-empty and free of
      whitespace, joined by any non-empty run of whitespace, split back into
      exactly the same words. So `Split` cuts at whitespace and nowhere
      else. */
  lemma SplitJoin(ws: seq<string>, sep: string)
    requires Words(ws)
    requires |sep| > 0 && AllSpace(sep)
    ensures Split(Join(ws, sep)) == ws
  {
    SplitJoinFrom(ws, sep);
  }

  lemma {:induction false} SplitJoinFrom(ws: seq<string>, sep: string)
    requires Words(ws)
    requires |sep| > 0 && AllSpace(sep)
    ensures Split(Join(ws, sep)) == ws
    decreases |ws|
  {
    if |ws| == 1 {
      SplitOneWord(ws[0]);
    } else if |ws| > 1 {
      var w, tail := ws[0], ws[1..];
      WordsTail(ws);
      var rest := Join(tail, sep);
      JoinCons(ws, sep);
      SplitWordThenSpaces(w, sep, rest);
      SplitJoinFrom(tail, sep);
      assert ws == [w] + tail;
    }
  }

  lemma WordsTail(ws: seq<string>)
    requires |ws| > 0 && Words(ws)
    ensures |ws[0]| > 0 && NoSpace(ws[0]) && Words(ws[1..])
  {
    assert forall i :: 0 <= i < |ws[1..]| ==> ws[1..][i] == ws[i + 1];
  }

  lemma JoinCons(ws: seq<string>, sep: string)
    requires |ws| > 1
    ensures Join(ws, sep) == ws[0] + (sep + Join(ws[1..], sep))
  {
  }

  /** A non-empty whitespace-free text is one word. */
  lemma {:induction false} SplitOneWord(w: string)
    requires |w| > 0 && NoSpace(w)
    ensures Split(w) == [w]
  {
    WordAtWord(w, "");
    assert w + "" == w;
    assert w[|w|..] == "";
  }

  /** A word, then whitespace, then anything: the word is the first word. */
  lemma {:induction false} SplitWordThenSpaces(w: string, sep: string, rest: string)
    requires |w| > 0 && NoSpace(w)
    requires |sep| > 0 && AllSpace(sep)
    ensures Split(w + (sep + rest)) == [w] + Split(rest)
  {
    var s := w + (sep + rest);
    WordAtWord(w, sep + rest);
    assert s[|w|..] == sep + rest;
    SplitSkipsSpaces(sep, rest);
  }

  /** The joined text starts with the first word and ends with the last. */
  lemma {:induction false} JoinEnds(ws: seq<string>, sep: string)
    requires |ws| > 0
    ensures |ws[0]| <= |Join(ws, sep)| && Join(ws, sep)[..|ws[0]|] == ws[0]
    ensures var r := Join(ws, sep); r[|r| - |ws[|ws| - 1]|..] == ws[|ws| - 1]
    decreases |ws|
  {
    if |ws| > 1 {
      JoinEnds(ws[1..], sep);
      var rest := Join(ws[1..], sep);
      var r := Join(ws, sep);
      assert r == ws[0] + sep + rest;
      assert ws[1..][|ws[1..]| - 1] == ws[|ws| - 1];
      assert r[|r| - |ws[|ws| - 1]|..] == rest[|rest| - |ws[|ws| - 1]|..];
    }
  }

  /** Joining with `_` adds exactly one character between neighbours. */
  lemma {:induction false} JoinLength(ws: seq<string>)
    requires |ws| > 0
    ensures |Join(ws, "_")| == |Concat(ws)| + |ws| - 1
    decreases |ws|
  {
    if |ws| > 1 {
      JoinLength(ws[1..]);
    }
  }

  /** Appending a word appends `_` and the word to the joined text. */
  lemma {:induction false} JoinSnoc(ws: seq<string>, w: string)
    requires |ws| > 0
    ensures Join(ws + [w], "_") == Join(ws, "_") + "_" + w
    decreases |ws|
  {
    if |ws| == 1 {
      assert (ws + [w])[1..] == [w];
    } else {
      assert (ws + [w])[1..] == ws[1..] + [w];
      JoinSnoc(ws[1..], w);
    }
  }

  /** The characters `_get_first_few_words` removes. */
  const Unsafe: string := "<>:\"/\\|?*!"

  /** Removes every unsafe character, keeping the others in order. */
  function Sanitize(s: string): (r: string)
    ensures |r| <= |s|
    ensures forall i :: 0 <= i < |r| ==> r[i] !in Unsafe
    ensures forall i :: 0 <= i < |r| ==> r[i] in s
  {
    if |s| == 0 then ""
    else if s[0] in Unsafe then Sanitize(s[1..])
    else [s[0]] + Sanitize(s[1..])
  }

  /** Text that is already safe is left as it is; so sanitising twice is
      sanitising once. */
  lemma {:induction false} SanitizeKeepsSafeText(s: string)
    requires forall i :: 0 <= i < |s| ==> s[i] !in Unsafe
    ensures Sanitize(s) == s
    decreases |s|
  {
    if |s| > 0 {
      SanitizeKeepsSafeText(s[1..]);
    }
  }

  /** Sanitising one character keeps it exactly when it is safe. */
  lemma SanitizeOne(ch: char)
    ensures ch in Unsafe ==> Sanitize([ch]) == []
    ensures ch !in Unsafe ==> Sanitize([ch]) == [ch]
  {
    assert [ch][1..] == [];
  }

  /** Sanitising distributes over concatenation. With `SanitizeOne` this
      pins the result down: every safe character is kept, in order, and
      only the unsafe ones are dropped. */
  lemma {:induction false} SanitizeAppend(a: string, b: string)
    ensures Sanitize(a + b) == Sanitize(a) + Sanitize(b)
    decreases |a|
  {
    if |a| == 0 {
      assert a + b == b;
    } else {
      assert (a + b)[0] == a[0];
      assert (a + b)[1..] == a[1..] + b;
      SanitizeAppend(a[1..], b);
    }
  }

  lemma SanitizeIdempotent(s: string)
    ensures Sanitize(Sanitize(s)) == Sanitize(s)
  {
    SanitizeKeepsSafeText(Sanitize(s));
  }

  function Min(a: nat, b: nat): nat {
    if a <= b then a else b
  }

  /** `_get_first_few_words` on the first message's content. */
  function FirstFewWords(content: string): (r: string)
    ensures |r| <= 25
    ensures forall i :: 0 <= i < |r| ==> r[i] !in Unsafe
    ensures forall i :: 0 <= i < |r| ==> r[i] == '_' || r[i] in content[..Min(25, |content|)]
  {
    var head := content[..Min(25, |content|)];
    var words := Split(head);
    var picked := if |words| >= 2 then Join(words[..|words| - 1], "_") else head[..Min(15, |head|)];
    if |words| >= 2 then
      PickedNoLonger(head, words);
      PickedDrawnFromHead(head, words);
      Sanitize(picked)
    else
      Sanitize(picked)
  }

  /** Every character of `j` is an underscore or a character of `s`. */
  predicate DrawnFrom(j: string, s: string) {
    forall i :: 0 <= i < |j| ==> j[i] == '_' || j[i] in s
  }

  /** Every character of every word in `ws` is a character of `s`. */
  predicate WordsFrom(ws: seq<string>, s: string) {
    forall k, i :: 0 <= k < |ws| && 0 <= i < |ws[k]| ==> ws[k][i] in s
  }

  /** The words but the last, joined, are no longer than the head. */
  lemma {:induction false} PickedNoLonger(head: string, words: seq<string>)
    requires words == Split(head) && |words| >= 2
    ensures |Join(words[..|words| - 1], "_")| <= |head|
  {
    var n := |words|;
    assert words == words[..n - 1] + [words[n - 1]];
    JoinSnoc(words[..n - 1], words[n - 1]);
    JoinedWordsNoLonger(head);
  }

  /** Joining words taken from `s` gives underscores and characters of `s`. */
  lemma {:induction false} JoinDrawnFrom(ws: seq<string>, s: string)
    requires WordsFrom(ws, s)
    ensures DrawnFrom(Join(ws, "_"), s)
    decreases |ws|
  {
    if |ws| > 1 {
      assert WordsFrom(ws[1..], s) by {
        forall k, i | 0 <= k < |ws[1..]| && 0 <= i < |ws[1..][k]|
          ensures ws[1..][k][i] in s
        {
          assert ws[1..][k] == ws[k + 1];
        }
      }
      JoinDrawnFrom(ws[1..], s);
      var j, r := Join(ws, "_"), Join(ws[1..], "_");
      assert j == ws[0] + "_" + r;
      forall i | 0 <= i < |j|
        ensures j[i] == '_' || j[i] in s
      {
        if i < |ws[0]| {
          assert j[i] == ws[0][i];
        } else if i > |ws[0]| {
          assert j[i] == r[i - |ws[0]| - 1];
        }
      }
    } else if |ws| == 1 {
      assert Join(ws, "_") == ws[0];
    }
  }

  /** The words of `s` are made of characters of `s`. */
  lemma {:induction false} SplitWordsFrom(s: string)
    ensures WordsFrom(Split(s), s)
    decreases |s|
  {
    if |s| == 0 {
    } else if IsSpace(s[0]) {
      SplitWordsFrom(s[1..]);
      forall k, i | 0 <= k < |Split(s)| && 0 <= i < |Split(s)[k]|
        ensures Split(s)[k][i] in s
      {
        assert Split(s)[k][i] in s[1..];
      }
    } else {
      var w := WordAt(s);
      var rest := s[|w|..];
      SplitWordsFrom(rest);
      forall k, i | 0 <= k < |Split(s)| && 0 <= i < |Split(s)[k]|
        ensures Split(s)[k][i] in s
      {
        if k == 0 {
          assert Split(s)[0] == w && w[i] == s[i];
        } else {
          assert Split(s)[k] == Split(rest)[k - 1];
          assert Split(rest)[k - 1][i] in rest;
        }
      }
    }
  }

  /** The words but the last, joined, are made of the head's characters and
      underscores. */
  lemma PickedDrawnFromHead(head: string, words: seq<string>)
    requires words == Split(head) && |words| >= 2
    ensures DrawnFrom(Join(words[..|words| - 1], "_"), head)
  {
    SplitWordsFrom(head);
    var ws := words[..|words| - 1];
    assert WordsFrom(ws, head) by {
      forall k, i | 0 <= k < |ws| && 0 <= i < |ws[k]|
        ensures ws[k][i] in head
      {
        assert ws[k] == words[k];
      }
    }
    JoinDrawnFrom(ws, head);
  }

  /** With fewer than two words in the first 25 characters, the title is
      the sanitised first 15 characters; with more, it is the sanitised
      words but the last, joined by underscores. */
  lemma FirstFewWordsByWordCount(content: string)
    ensures var head := content[..Min(25, |content|)];
      && (|Split(head)| < 2 ==> FirstFewWords(content) == Sanitize(content[..Min(15, |content|)]) && |FirstFewWords(content)| <= 15)
      && (|Split(head)| >= 2 ==> FirstFewWords(content) == Sanitize(Join(Split(head)[..|Split(head)| - 1], "_")))
  {
    var head := content[..Min(25, |content|)];
    assert head[..Min(15, |head|)] == content[..Min(15, |content|)];
  }

  /** The title of a conversation, from its first message; an empty
      conversation raises `IndexError`. */
  function ConversationTitle(messages: seq<Message>): (r: Result<string>)
    ensures |messages| == 0 <==> r == Err(IndexError)
    ensures r.Ok? ==> |r.value| <= 25
  {
    if |messages| == 0 then Err(IndexError) else Ok(FirstFewWords(messages[0].content))
  }

  /** The saved file name `{first_few_words}__{date}.json`; the date is a
      parameter because the clock is not part of this model. */
  function ConversationFilename(title: string, date: string): (r: string)
    ensures |r| == |title| + |date| + 7 && r[..|title|] == title
    ensures |r| >= 5 && r[|r| - 5..] == ".json"
  {
    title + "__" + date + ".json"
  }
}
